=== FILE: README.md ===
# Miami deal pipeline, modelled in Dafny

The system has two halves.

The first half is a dashboard of land deals for Miami parcels. It holds two kinds of record:

- ten curated parcels that are maintained by hand;
- deals read from a JSON feed that a scraper writes.

Each record carries a lot size, a zoning code, residential units, an asking price, notes, flags and a priority. The dashboard derives several figures from these records:

- the cost per door;
- a density figure in units per acre, with a gauge and a band;
- four portfolio cards: the parcel count with the number of high-priority parcels, total units with the number of mixed-use parcels, the pipeline value (total ask), and the best asking price per door.

The table can be filtered by source, searched, and sorted by a clicked column. Deals are added, edited and deleted in place.

The second half is the scraper. It reconciles freshly extracted listings with the existing deals file. It matches listings on a normalised address and logs price changes into a deal's price history. It formats genuinely new listings as deals and writes them ahead of the old ones, clearing the old deals' "new" mark.

The model keeps both halves as pure functions over immutable records. JavaScript and Python truthiness is explicit in the model:

- 0, "" and null/None are absent in both languages.
- `[]` is truthy in JavaScript and falsy in Python.
- A JSON key can be missing, null, or hold a value, which is the `Field` type.

Two Python exceptions are modelled as a `Fault` result. Both abort a run before anything is saved:

- calling `.lower()` on an address stored as `None`;
- appending to a price history that is missing.

Files:

| file | module | contents |
|---|---|---|
| base.dfy | `Base` | `Option`, `Result`, `Field`, truthiness and the `x \|\| fallback` reads |
| lists.dfy | `Lists` | order-preserving filter, subsequences, sums |
| text.dfy | `Text` | JS `trim` and Python `strip` white space, ASCII lower-casing, substring search, `join`, the first five-digit run |
| records.dfy | `Records` | the listing and stored-deal JSON shapes |
| deal.dfy | `Deals` | the dashboard's deal record, the priority rank, the blank draft, the curated parcels |
| metrics.dfy | `Metrics` | cost per door, density, the portfolio cards |
| feed.dfy | `Feed` | mapping a feed record to a dashboard deal |
| sorting.dfy | `Sorting` | the column comparator and a stable insertion sort |
| query.dfy | `Query` | source filter, search, sort and the header toggle |
| store.dfy | `Store` | the start-up merge, save and delete |
| scraper.dfy | `Scraper` | the type table, the address index, deduplication, formatting and merging |
| pipeline.dfy | `Pipeline` | what the dashboard shows of a file the scraper has just written |
| portfolio.dfy | `Portfolio` | the dashboard's figures for the curated parcels |

Conventions:

- JavaScript arithmetic (`/`, `Math.round`, `Math.min`) is computed exactly over Dafny `real`.
- `Math.round(x)` is `floor(x + 1/2)`.
- Clocks are parameters. `Date.now()` becomes `stamp`. The scraper's `datetime.now()` readings become `today`, `stamp` and `now`, one reading each per run.

## Model

| member | source | states |
|---|---|---|
| Deals.PriorityRank | miami_land_tracker.jsx:23 | the rank is 0 exactly for high and 2 exactly for low, so high sorts before medium before low |
| Deals.Blank | miami_land_tracker.jsx:25 | a fresh draft has the given id, an empty name and no flags, is medium priority, is not mixed-use, and has no source, price, units or lot size |
| Metrics.CostPerDoor | miami_land_tracker.jsx:24 | defined exactly when the asking price and the residential units are both truthy; then it is the integer nearest to askPrice / (1000 * unitsRes) |
| Metrics.UnitsPerAcre | miami_land_tracker.jsx:196-198 | 0 when the lot size is absent or 0; otherwise the integer nearest to units * 43560 / lot, with absent units counted as 0; never negative for non-negative inputs |
| Metrics.GaugePercent | miami_land_tracker.jsx:199 | at most 100, not negative for a non-negative density, exactly 100 from 150 units per acre up, and proportional below that |
| Metrics.DensityBand | miami_land_tracker.jsx:199-201 | "high" exactly above 90 units per acre (gauge over 60), "moderate" exactly for 53 to 90, "low" exactly for 52 or less |
| Metrics.HighCount | miami_land_tracker.jsx:152 | at most the number of records; 0 exactly when no record is high priority; all of them exactly when every record is |
| Metrics.MixedUseCount | miami_land_tracker.jsx:153 | at most the number of records; 0 exactly when no record has mixedUse strictly true; null and false are not counted |
| Metrics.BestPerDoor | miami_land_tracker.jsx:149-150 | absent exactly when no record has a truthy price and truthy units; otherwise the ask per door of one such record, and no more than any other's |
| Metrics.CountsAsSums | miami_land_tracker.jsx:152-153 | the two counts are sums of 0/1 weights over the records |
| Metrics.CardsAdditive | miami_land_tracker.jsx:148-153 | the cards of two concatenated lists are the sums of each list's cards |
| Metrics.CardsIgnoreOrder | miami_land_tracker.jsx:148-153 | lists with the same records in any order give the same cards, including the best ask per door |
| Metrics.TotalUnitsSkipsAbsent | miami_land_tracker.jsx:148 | total units equals the total over the records whose units are set |
| Metrics.TotalUnits | miami_land_tracker.jsx:148 | the units card; `CardsAdditive`, `CardsIgnoreOrder` and `TotalUnitsSkipsAbsent` state that it adds up each record's units, with a missing value counting as 0, whatever the order |
| Metrics.TotalAsk | miami_land_tracker.jsx:151 | the pipeline-value card; `CardsAdditive` and `CardsIgnoreOrder` state that it adds up each record's ask, with a missing ask counting as 0, whatever the order |
| Feed.ToDeal | miami_land_tracker.jsx:247-279 | the i-th feed record gets id 10000+i and the pipeline source. Units, lodging units and mixed use are null, so it has no cost per door and zero density. Its priority is high exactly when is_new is truthy and is never low. is_new keeps the raw value. The name is the address or "Unknown". The zip is the leftmost run of five ASCII digits in the address, or "" when there is none. Lot, ask, zone and url are set exactly when the record's value is truthy, and are then that value. The flags are `Flags` of the record and the notes are `Notes` of it, so `FlagsByLabel`, `NotesShape` and `StatusItem` speak of the deal's own flags and notes. The price history is the record's when it is a list, else empty |
| Feed.MapFeed | miami_land_tracker.jsx:247-248 | one deal per feed record, in order, with pairwise distinct ids |
| Feed.LaterIsNewWins | miami_land_tracker.jsx:251-277 | the raw is_new value kept by the later key differs from the strict `=== true` reading exactly when is_new is missing or null |
| Feed.PresentValues | miami_land_tracker.jsx:259-273 | `filter(Boolean)` keeps exactly the values of the present candidates; it keeps all of them exactly when every candidate is present, and none exactly when every one is null |
| Feed.FlagsShape | miami_land_tracker.jsx:267-273 | the flags are an in-order subsequence of New, Land, Multifamily, Single Family, Price Changed. "Price Changed" appears exactly when the history has more than one entry. "New" appears exactly when is_new is truthy |
| Feed.OneTypeFlag | miami_land_tracker.jsx:269-271 | at most one of the property-type flags appears |
| Feed.NotesShape | miami_land_tracker.jsx:259-266 | the notes are "" exactly when no item is present, and each present item occurs in them |
| Feed.StatusItem | miami_land_tracker.jsx:263 | "Status: unknown" is never a note item; the status item is present exactly when the status is truthy and not "unknown" |
| Feed.Notes | miami_land_tracker.jsx:259-266 | the joined note text; `NotesShape` and `StatusItem` state that it is empty exactly when no item is present, that every present item occurs in it, and when the status item appears |
| Feed.Flags | miami_land_tracker.jsx:267-273 | the flag list; `FlagsByLabel` states that it is the fixed label order filtered by each label's condition, and `FlagsShape` and `OneTypeFlag` draw the consequences |
| Feed.FlagsByLabel | miami_land_tracker.jsx:267-273 | the flags are exactly the labels New, Land, Multifamily, Single Family and Price Changed whose condition holds, in that order |
| Sorting.Compare | miami_land_tracker.jsx:306 | 0 exactly for equal keys; otherwise the sign orders smaller keys first when the direction is 1 and last when it is -1 |
| Sorting.SortPermutes | miami_land_tracker.jsx:302-307 | the sorted list is a permutation of its input |
| Sorting.SortSorts | miami_land_tracker.jsx:302-307 | the sorted list is ordered by the comparator |
| Sorting.SortStable | miami_land_tracker.jsx:302-307 | records with equal keys keep their relative order |
| Sorting.StableSortUnique | miami_land_tracker.jsx:302-307 | two ordered, stable permutations of the same list are equal |
| Sorting.EngineSortAgrees | miami_land_tracker.jsx:302-307 | any ordered, stable permutation of the input is the insertion sort's result |
| Sorting.InsertionSort | miami_land_tracker.jsx:302-307 | the reference stable sort; `SortPermutes`, `SortSorts`, `SortStable` and `StableSortUnique` state that it returns the one ordered, stable permutation of its input |
| Sorting.InfinityPlacement | miami_land_tracker.jsx:305 | a missing key, read as Infinity, sorts after every present key when the direction is 1 and before every one when it is -1 |
| Query.Toggle | miami_land_tracker.jsx:311 | clicking the active column flips the direction; clicking another column selects it, ascending |
| Query.ToggleTwice | miami_land_tracker.jsx:311 | clicking the active column twice restores the sort state; clicking another column twice leaves it selected and descending |
| Query.BySource | miami_land_tracker.jsx:297 | the source filter; `SourceFilterShape` and `BySourceCounts` state that it keeps, in order and with multiplicity, exactly the records of the chosen source, or all of them for "all" |
| Query.Search | miami_land_tracker.jsx:298-301 | the search box; `BlankQueryKeepsAll`, `ActiveQueryKeepsMatches` and `SearchCounts` state that a blank query keeps everything and any other query keeps exactly the matching records |
| Query.View | miami_land_tracker.jsx:294-309 | the `sorted` table; `ViewContents` and `ViewOrder` state that it holds exactly the shown records with their multiplicity, ordered stably by the selected column |
| Query.ViewContents | miami_land_tracker.jsx:294-309 | the table holds each record as often as the input does when it passes the source filter and the search, and never otherwise |
| Query.SearchCounts | miami_land_tracker.jsx:298-301 | the search keeps a sub-multiset of its input |
| Query.ViewOrder | miami_land_tracker.jsx:302-307 | the table is ordered by the selected column, stable, and the only such arrangement |
| Query.PriorityOrder | miami_land_tracker.jsx:304 | in the initial sort, a high-priority record comes before a medium one, and a medium one before a low one |
| Query.MissingValuesPlacement | miami_land_tracker.jsx:305 | records without a value in the sorted column come last when ascending and first when descending |
| Query.SourceFilterShape | miami_land_tracker.jsx:297 | "all" keeps the list as it is; any other choice keeps an in-order subsequence whose records all have that source |
| Query.BySourceCounts | miami_land_tracker.jsx:297 | a source filter keeps a record as often as it occurs exactly when the record has that source |
| Query.SourcePartition | miami_land_tracker.jsx:297 | curated, pipeline and sourceless records together are the whole list, as a multiset |
| Query.CuratedPlusPipeline | miami_land_tracker.jsx:297 | when every record has a source, curated plus pipeline is the whole list |
| Query.BlankQueryKeepsAll | miami_land_tracker.jsx:298 | a query made only of white space keeps every record |
| Query.ActiveQueryKeepsMatches | miami_land_tracker.jsx:298-300 | otherwise a record is kept exactly when the lower-cased, untrimmed query occurs in its name, address, zone, notes or a flag |
| Store.Seeded | miami_land_tracker.jsx:283 | the curated parcels come first, then one pipeline deal per feed record, and all ids are distinct |
| Store.Save | miami_land_tracker.jsx:319-322 | refused exactly when the trimmed name is empty. If the id exists, every record with it is replaced in place, with the length and other records unchanged. Otherwise the draft is appended |
| Store.Delete | miami_land_tracker.jsx:318 | no record with the id remains; the rest keep their order and multiplicity; the length is unchanged exactly when the id was absent |
| Store.BlankRejected | miami_land_tracker.jsx:316-320 | the draft from "add" cannot be saved unedited, and the list stays as it was |
| Store.SaveIdempotent | miami_land_tracker.jsx:319-322 | saving the same draft twice equals saving it once |
| Store.SaveKeepsIdsUnique | miami_land_tracker.jsx:321-322 | a save keeps ids distinct and leaves the draft as the only record with its id |
| Store.DeleteIdempotent | miami_land_tracker.jsx:318 | deleting an id twice equals deleting it once |
| Store.AddThenDelete | miami_land_tracker.jsx:318-322 | adding a draft under a new id and then deleting that id gives back the original list |
| Scraper.SiteType | scraper.py:45-49 | defined exactly for single_family, multifamily and land |
| Scraper.SiteTypes | scraper.py:50 | the result is no longer than the input, and every entry is house, multi_family or lot |
| Scraper.TypeTableInverse | scraper.py:45-49 | the table is one-to-one |
| Scraper.SiteTypesRoundTrip | scraper.py:50 | mapping the types and reading them back gives the known types in their given order, with unknown names dropped |
| Scraper.SiteTypesConcat | scraper.py:50 | mapping a concatenation is concatenating the mappings |
| Scraper.DealKey | scraper.py:176 | fails exactly for an address stored as None; a missing address gives the empty key; a string address gives its normalised form |
| Scraper.Normalize | scraper.py:176 | a key has no upper-case ASCII letter and no white space at either end |
| Scraper.NormalizeIgnoresPadding | scraper.py:176 | addresses that differ only by white space around them get the same key |
| Scraper.NormalizeIgnoresCase | scraper.py:176 | addresses that differ only in ASCII case get the same key |
| Scraper.NormalizeIdempotent | scraper.py:184 | normalising a key gives the key back |
| Scraper.NormalizeKeepsKeys | scraper.py:176 | an address already lower-case and without surrounding white space is its own key, so with `NormalizeIgnoresCase` and `NormalizeIgnoresPadding` the key is the address's own characters, lower-cased and stripped |
| Scraper.BuildIndex | scraper.py:174-178 | fails exactly when some address is None. Otherwise it maps exactly the non-empty keys, each to the last deal that carries it |
| Scraper.LogPrice | scraper.py:195-201 | succeeds exactly when the history is a list. Then the history grows by one entry with the new price and today's date, the price becomes the new one, which is also the next comparison price, and the address is kept |
| Scraper.OldPrice | scraper.py:191 | the price a listing is compared with; `LogPrice` states that after a logged price it is the new price, and `Format` that a freshly formatted deal's is its own listing price |
| Scraper.Step | scraper.py:183-201 | one loop iteration keeps the deal count, the addresses, and adds at most one updated address; `StepNew` and `StepEffect` state exactly when the listing is taken as new, when the run aborts, and which deal is logged |
| Scraper.Scan | scraper.py:183-204 | the loop over the listings keeps the deal count and the addresses, with at most one update per listing; `ScanNew`, `ScanFails`, `ScanDeals` and `ScanSkipsEmptyKey` carry its meaning |
| Scraper.ScanSkipsEmptyKey | scraper.py:184-186 | removing an empty-key listing from anywhere in the batch leaves the loop's outcome unchanged |
| Scraper.Deduplicate | scraper.py:168-206 | a bad index aborts the run; otherwise the existing deals keep their count and at most one price update is recorded per listing. `DeduplicateNew`, `DeduplicateFails` and `DeduplicateDeals` carry its meaning |
| Scraper.ScanFails | scraper.py:183-201 | a pass aborts exactly when some listing's key points at a deal with no history list whose truthy price differs from the listing's truthy price |
| Scraper.ScanDeals | scraper.py:188-201 | every existing deal only grows, by history entries with a truthy price dated today; a deal no listing points at is unchanged |
| Scraper.DeduplicateNew | scraper.py:183-204 | the new listings are, in order and with repeats, those whose key is non-empty and carried by no existing deal |
| Scraper.DeduplicateFails | scraper.py:174-201 | the run aborts exactly when an existing address is None, or some listing hits a deal without a history list with a moved price |
| Scraper.DeduplicateDeals | scraper.py:188-201 | the existing deals keep their order and only grow; one that no listing points at is unchanged |
| Scraper.EmptyKeyIgnored | scraper.py:184-186 | a listing whose key is empty, anywhere in the batch, changes none of the outputs and does not change whether the run aborts |
| Scraper.Format | scraper.py:295-315 | new, zoning "", added_at equal to last_seen, type and status "unknown" when missing. The history has exactly one entry when the price is truthy and none otherwise. The deal's key is the listing's, and so is its comparison price |
| Scraper.MarkSeen | scraper.py:319-320 | the "new" mark is false and nothing else changes |
| Scraper.Merge | scraper.py:317-322 | the new deals come first, then the old ones; only the first are marked new, and the old ones are the deduplicated deals |
| Scraper.Reconcile | scraper.py:288-323 | succeeds exactly when deduplication does, and saves as many deals as new listings plus existing deals |
| Scraper.RerunFindsNothingNew | scraper.py:168-206 | after a run the saved file indexes cleanly and carries every non-empty key of the batch, so the same batch run again yields no new listing |
| Pipeline.OnlyNewDealsRankHigh | scraper.py:312-320 | after a run, the dashboard ranks exactly the deals the run added as high priority and every earlier deal as medium |
| Pipeline.FreshDealFlags | scraper.py:313 | a deal the scraper has just added is flagged new and never "price changed" |
| Pipeline.LoggedDealFlags | scraper.py:195-198 | a deal whose price is logged on a non-empty history shows "price changed" |
| Portfolio.CuratedCostPerDoor | miami_land_tracker.jsx:14 | parcel 5 (225000 for 8 units) costs 28k per door; parcels 1 and 8 have none |
| Portfolio.CuratedDensity | miami_land_tracker.jsx:10-16 | parcel 1 is 30 units per acre and low density; parcel 7 is 134 and high |
| Portfolio.CuratedTotalUnits | miami_land_tracker.jsx:9-20 | the curated parcels total 236 units |
| Portfolio.CuratedTotalAsk | miami_land_tracker.jsx:9-20 | the curated parcels total 17,540,000 in asking prices |
| Portfolio.CuratedBestPerDoor | miami_land_tracker.jsx:19 | the cheapest door is parcel 10's, at 775000 / 35 |
| Portfolio.SearchFindsWynwood | miami_land_tracker.jsx:19 | searching "wynwood" finds parcel 10 by its name |

## Behaviour worth knowing

- Missing sort values are read as Infinity (miami_land_tracker.jsx:305). They therefore come last when the direction is ascending and first when it is descending (`Sorting.InfinityPlacement`, `Query.MissingValuesPlacement`).
- A record created from the blank draft (miami_land_tracker.jsx:25) has no `source`. The source filter at miami_land_tracker.jsx:297 then shows it only under "all", so curated plus pipeline can be fewer records than all (`Query.SourcePartition`).
- The feed mapping sets the zip to "" when the address has no run of five digits (miami_land_tracker.jsx:252; `Feed.ToDeal`).
- The feed mapping writes `is_new` twice. The later key (miami_land_tracker.jsx:277) keeps the raw value and overrides the strict `=== true` at miami_land_tracker.jsx:251 (`Feed.LaterIsNewWins`).
- The "Best $/Door" card's caption is fixed text naming NW 4th Ave (miami_land_tracker.jsx:165). For the curated parcels, the computed best is NW 5th Ave (Wynwood), at 775000 / 35, about 22.1k a door (`Portfolio.CuratedBestPerDoor`). NW 4th Ave is about 28.1k. The caption is presentation and is not modelled.
- The start-up merge (miami_land_tracker.jsx:283) rebuilds the list from the curated constant plus the feed. Edits made before the feed arrives are therefore replaced (`Store.Seeded`).
- `deduplicate` (scraper.py:183-204) compares each listing only with the existing deals. Listings repeated within one batch are all taken as new (`Scraper.DeduplicateNew`).

## Left out

- Network, transport and state:
  - the feed fetch and its error path;
  - the pipeline status, the new-count badge and the last-updated time;
  - the scraper's page fetch and its LLM extraction calls;
  - the HTTP server.
  All of these are I/O against services outside the model.
- File and configuration I/O (`load_config`, `load_deals`, `save_deals`). Their values are parameters.
- Tagging each extracted listing with its neighbourhood, and the loop that collects the listings. The model takes the collected listings as input.
- Regex HTML stripping, JSON-array extraction, and URL encoding with `json.dumps`/`quote`. These are library encodings; only the type table is modelled.
- Clocks. `Date.now()` and the scraper's clock readings are parameters (`stamp`, `today`, `now`).
- Scraper.Scan: one `today` and one `stamp` stand for every `datetime.now()` call made while logging prices (scraper.py:197 and scraper.py:200). A run whose log entries carry different dates or times, such as one that crosses midnight, is not modelled. `Scraper.ScanDeals` and `Scraper.DeduplicateDeals` say "dated today" partly because of this single reading.
- Presentation: CSS, SVG, the components, the sparklines, the modal form parsing, locale formatting (`toLocaleString`, `toFixed`), and clearing the selection after a delete.
- Sorting by the name column. Every name is a string, so this column is a plain comparison of UTF-16 code units. String ordering is not modelled.
- Sorting by the zone column. Feed deals have a null zone (miami_land_tracker.jsx:254), which is read as Infinity, while curated deals have strings. JavaScript compares a string with Infinity by numeric conversion, which is not modelled. Only the priority, lot, units and ask columns are modelled.
- Metrics.CostPerDoor: exact rational arithmetic. Floating-point rounding of `/` and `Math.round` is not modelled.
- Metrics.UnitsPerAcre: exact rational arithmetic, as for the cost per door.
- Text.Lower: ASCII letters only. JavaScript's and Python's full Unicode case mappings are not modelled.
- JSON values of unexpected types. Strings are strings.
- Fractional numbers. Every number is an integer. This matters for `beds` and `baths`: half baths such as `2.5` are ordinary data and would show as "2.5ba" in the notes (miami_land_tracker.jsx:261). The model renders only whole counts. Fractional prices and sizes are not modelled either.
- The `sqft` note item is formatted with en-US digit grouping. Other locales are not modelled.

=== FILE: base.dfy ===
/** Value shapes shared by the dashboard and the scraper: optional values, error-carrying results,
    JSON object fields, and the truthiness rules of JavaScript and Python made explicit. */
module Base {

  /** A value that may be `null` (JavaScript) or `None` (Python). */
  datatype Option<+T> = None | Some(value: T) {
    function GetOr(default: T): T {
      match this
      case Some(v) => v
      case None => default
    }
  }

  /** The outcome of an operation that can fail: a value or the reason it failed. */
  datatype Result<+R, +E> = Success(value: R) | Failure(error: E) {
    function GetOr(default: R): R {
      match this
      case Success(v) => v
      case Failure(_) => default
    }
  }

  /** One key of a JSON object or Python dict: missing, present with `null`/`None`,
      or present with a value. Python's `d.get(k)` and `d.get(k, default)` tell the first
      two apart; JavaScript's `d.k || …` does not. */
  datatype Field<+T> = Absent | Null | Val(value: T)

  /** Python `d.get(k)`: a missing key and a `None` value both read as `None`. */
  function Get<T>(f: Field<T>): Option<T> {
    match f
    case Val(v) => Some(v)
    case _ => None
  }

  /** The field written by `{"k": src.get("k")}`: a missing key becomes an explicit `None`. */
  function Copied<T>(f: Field<T>): Field<T> {
    if f.Absent? then Null else f
  }

  /** The field written by `{"k": src.get("k", default)}`. */
  function CopiedOr<T>(f: Field<T>, default: T): Field<T> {
    if f.Absent? then Val(default) else f
  }

  // ---- truthiness (numbers and strings behave alike in both languages) ----

  /** `if x` / `x ? … : …` on a nullable number: `null`, `None` and `0` are falsy. */
  predicate Truthy(o: Option<int>) {
    o.Some? && o.value != 0
  }

  predicate IntTruthy(f: Field<int>) {
    f.Val? && f.value != 0
  }

  predicate StrTruthy(f: Field<string>) {
    f.Val? && f.value != ""
  }

  predicate BoolTruthy(f: Field<bool>) {
    f == Val(true)
  }

  /** JavaScript: every array, even `[]`, is truthy. */
  predicate JsListTruthy<T>(f: Field<seq<T>>) {
    f.Val?
  }

  /** Python: an empty list is falsy. */
  predicate PyListTruthy<T>(f: Field<seq<T>>) {
    f.Val? && |f.value| > 0
  }

  /** JavaScript `x || 0` on a nullable number. */
  function OrZero(o: Option<int>): int {
    if o.Some? then o.value else 0
  }

  /** JavaScript `x || null` on a number field. */
  function IntOrNull(f: Field<int>): (r: Option<int>)
    ensures r.Some? <==> IntTruthy(f)
    ensures r.Some? ==> r.value == f.value && r.value != 0
  {
    if IntTruthy(f) then Some(f.value) else None
  }

  /** JavaScript `x || null` on a string field. */
  function StrOrNull(f: Field<string>): (r: Option<string>)
    ensures r.Some? <==> StrTruthy(f)
    ensures r.Some? ==> r.value == f.value && r.value != ""
  {
    if StrTruthy(f) then Some(f.value) else None
  }

  /** JavaScript `x || fallback` on a string field. */
  function StrOr(f: Field<string>, fallback: string): (r: string)
    ensures StrTruthy(f) ==> r == f.value
    ensures !StrTruthy(f) ==> r == fallback
  {
    if StrTruthy(f) then f.value else fallback
  }
}

=== FILE: deal.dfy ===
/** The dashboard's deal record, the seed list of curated deals, and the blank draft used by the
    "add" form. */
module Deals {
  import opened Base
  import opened Records

  datatype Priority = High | Medium | Low

  /** Provenance. Records created from the blank draft carry no source at all. */
  datatype Source = Curated | Pipeline

  datatype Deal = Deal(
    id: int,
    name: string,
    address: string,
    zip: string,
    lotSqFt: Option<int>,
    zone: Option<string>,
    unitsRes: Option<int>,
    unitsLodging: Option<int>,
    mixedUse: Option<bool>,
    askPrice: Option<int>,
    notes: string,
    flags: seq<string>,
    priority: Priority,
    url: Option<string>,
    source: Option<Source>,
    isNew: Field<bool>,
    priceHistory: Field<seq<PriceEntry>>)

  /** The `P_ORDER` table: high sorts before medium before low. */
  function PriorityRank(p: Priority): (r: nat)
    ensures r <= 2
    ensures p == High <==> r == 0
    ensures p == Low <==> r == 2
  {
    match p
    case High => 0
    case Medium => 1
    case Low => 2
  }

  /** A blank draft; `stamp` stands for the clock reading that becomes its id. */
  function Blank(stamp: int): (d: Deal)
    ensures d.id == stamp && d.name == "" && d.flags == []
    ensures d.priority == Medium && d.mixedUse == Some(false) && d.source == None
    ensures d.askPrice == None && d.unitsRes == None && d.lotSqFt == None
  {
    Deal(stamp, "", "", "", None, Some(""), None, None, Some(false), None, "", [], Medium, Some(""),
         None, Absent, Absent)
  }

  function CuratedDeal(id: int, name: string, address: string, zip: string, lotSqFt: Option<int>,
                   zone: string, unitsRes: Option<int>, unitsLodging: Option<int>,
                   mixedUse: Option<bool>, askPrice: Option<int>, notes: string,
                   flags: seq<string>, priority: Priority, url: string): Deal
  {
    Deal(id, name, address, zip, lotSqFt, Some(zone), unitsRes, unitsLodging, mixedUse, askPrice,
         notes, flags, priority, Some(url), Some(Curated), Absent, Absent)
  }

  /** The hand-maintained deals present at start-up. */
  const CuratedDeals: seq<Deal> := [
    CuratedDeal(1, "NE 80th Ter + NE 1st Ave", "47 NE 80th Ter & 8052 NE 1st Ave", "33138", Some(16000), "T5-O", Some(11), Some(22), Some(true), None,
      "2 touching lots, ~8k sf each. Very generous zoning — basically can do anything. Easy Live Local play if wanted. Cost basis per door separate from MU portion. Ask TBD — expect 50–70k/door range depending on close.",
      ["2 Lots", "Live Local"], High,
      "https://www.zillow.com/homedetails/47-NE-80th-Ter-Miami-FL-33138/399030477_zpid/"),
    CuratedDeal(2, "NW 90th St", "535 NW 90th St", "33150", Some(43560), "RU3B", Some(21), Some(20), Some(false), Some(1200000),
      "~1 acre. Tricky zone but 14–20 units possible depending on approvals. Adjacent to pricy neighborhoods, new stuff going up. 2,000 sf min space per family by-right.",
      ["~1 Acre", "Approval Risk"], Medium,
      "https://www.zillow.com/homedetails/535-NW-90th-St-Miami-FL-33150/44148658_zpid/"),
    CuratedDeal(3, "NW 5th Ave (33150)", "8848 NW 5th Ave", "33150", Some(21780), "RU3B", Some(10), Some(10), Some(false), Some(600000),
      "Half acre. Same zoning story as NW 90th St — tricky but possible with right approvals.",
      ["Approval Risk"], Medium,
      "https://www.zillow.com/homedetails/8848-NW-5th-Ave-Miami-FL-33150/2071325128_zpid/"),
    CuratedDeal(4, "NE 59th St", "22 NE 59th St", "33137", Some(6500), "T5-R", Some(9), None, Some(false), Some(750000),
      "9 units by right. No MU unless city agrees. Very close to Casa Paula boutique hotel (just approved). Overlooks a park. Great location play.",
      ["Park View", "Near Casa Paula"], High,
      "https://www.zillow.com/homedetails/22-NE-59th-St-Miami-FL-33137/43808296_zpid/"),
    CuratedDeal(5, "NW 4th Ave", "6320 NW 4th Ave", "33150", Some(5663), "T5-R", Some(8), None, Some(false), Some(225000),
      "Crazy cost basis — less than 30k/door for 8 units. Hard to beat on a per-door metric.",
      ["Best $/Door"], High,
      "https://www.zillow.com/homedetails/6320-NW-4th-Ave-Miami-FL-33150/43807772_zpid/"),
    CuratedDeal(6, "NE 64th St", "159 NE 64th St", "33138", Some(19158), "T5-O", Some(26), Some(52), Some(true), Some(1540000),
      "26 units res / 52 lodging by right. Price is suspiciously good — might be missing something. Needs deeper diligence.",
      ["⚠ Price Check"], High,
      "https://www.loopnet.com/Listing/159-NE-64th-St-Miami-FL/39052789/"),
    CuratedDeal(7, "NW 79th St", "540 NW 79th St", "33150", Some(15000), "T6-8-O", Some(46), Some(93), Some(true), Some(2600000),
      "46 res / 93 lodging by right. Best zoning of the bunch. ~15k sf. Longer-term play — position to coincide with Swerdlow development nearby.",
      ["Long-Term", "Best Zoning"], Medium,
      "https://www.loopnet.com/Listing/540-NW-79th-St-Miami-FL/30833428/"),
    CuratedDeal(8, "NW 2nd Ave (5931–5969)", "5931–5969 NW 2nd Ave", "33127", Some(7500), "T4-O", None, None, None, Some(3950000),
      "Up-and-coming location. Good things nearby, growing area. Existing structure can generate income until build. Ask is too high — value closer to $1.8M.",
      ["Overpriced", "Income Bridge"], Low,
      "https://www.loopnet.com/Listing/5931-5969-NW-2nd-Ave-Miami-FL/35238210/"),
    CuratedDeal(9, "Biscayne Blvd", "8699 Biscayne Blvd", "33150", Some(32952), "T6", Some(70), None, Some(true), Some(5900000),
      "More speculative — further north. 70 units by right, MU ground floor fine. T6 so up to 8 stories. A bit pricey for what it is.",
      ["Speculative"], Low,
      "https://www.loopnet.com/Listing/8699-Biscayne-Blvd-Miami-FL/32377249/"),
    CuratedDeal(10, "NW 5th Ave (Wynwood)", "3055 NW 5th Ave", "33127", Some(9576), "T5-L", Some(35), None, Some(true), Some(775000),
      "35 units by right, close to Wynwood. Nice street, amenable to multifamily. T5-L so MU ground floor works. Good vibes on this one.",
      ["Near Wynwood"], High,
      "https://www.zillow.com/homedetails/3055-NW-5th-Ave-Miami-FL-33127/43815727_zpid/")
  ]

  /** Ids are pairwise distinct. */
  predicate UniqueIds(ds: seq<Deal>) {
    forall i, j | 0 <= i < j < |ds| :: ds[i].id != ds[j].id
  }

  function Ids(ds: seq<Deal>): (r: set<int>)
    ensures forall i | 0 <= i < |ds| :: ds[i].id in r
    ensures forall id | id in r :: exists i | 0 <= i < |ds| :: ds[i].id == id
  {
    set i | 0 <= i < |ds| :: ds[i].id
  }
}

=== FILE: feed.dfy ===
/** Turning entries of the fetched deals file into dashboard deals (the `pipelineDeals.map`
    of the start-up fetch). The fetch itself is not modelled: the entries are the input. */
module Feed {
  import opened Base
  import opened Text
  import opened Lists
  import opened Records
  import opened Deals
  import Metrics

  /** Feed records take ids from this value upwards, by position in the batch. */
  const FeedIdBase := 10000

  const NewFlag := "\U{1F195} New"
  const LandFlag := "Land"
  const MultifamilyFlag := "Multifamily"
  const SingleFamilyFlag := "Single Family"
  const PriceChangedFlag := "Price Changed"

  /** Every flag the mapping can produce, in the order it produces them. */
  const FlagOrder: seq<string> :=
    [NewFlag, LandFlag, MultifamilyFlag, SingleFamilyFlag, PriceChangedFlag]

  const NoteSeparator := " \U{00B7} "

  /** `[…].filter(Boolean)` over candidate strings that are null or non-empty: the values of the
      present candidates, in order (`PresentValues`, `PresentConcat`). */
  function Present(xs: seq<Option<string>>): (r: seq<string>)
    ensures |r| <= |xs|
    decreases |xs|
  {
    if |xs| == 0 then []
    else (if xs[0].Some? then [xs[0].value] else []) + Present(xs[1..])
  }

  /** The kept strings are exactly the values of the present candidates; all are kept exactly
      when every candidate is present, and none exactly when every one is null. */
  lemma {:induction false} PresentValues(xs: seq<Option<string>>)
    ensures forall x :: x in Present(xs) <==> Some(x) in xs
    ensures |Present(xs)| == |xs| <==> forall i | 0 <= i < |xs| :: xs[i].Some?
    ensures Present(xs) == [] <==> forall i | 0 <= i < |xs| :: xs[i].None?
    decreases |xs|
  {
    if |xs| > 0 {
      PresentValues(xs[1..]);
      assert xs == [xs[0]] + xs[1..];
      assert forall i | 1 <= i < |xs| :: xs[i] == xs[1..][i - 1];
    }
  }

  /** `d.price_history && d.price_history.length > 1`. */
  predicate PriceChanged(r: StoredDeal) {
    JsListTruthy(r.priceHistory) && |r.priceHistory.value| > 1
  }

  predicate ShowsStatus(r: StoredDeal) {
    StrTruthy(r.status) && r.status.value != "unknown"
  }

  /** The note items in display order, each present only when its source value is truthy. */
  function NoteCandidates(r: StoredDeal): seq<Option<string>> {
    [ if IntTruthy(r.beds) then Some(ShowInt(r.beds.value) + "bd") else None,
      if IntTruthy(r.baths) then Some(ShowInt(r.baths.value) + "ba") else None,
      if IntTruthy(r.sqft) then Some(ShowGrouped(r.sqft.value) + " sqft living") else None,
      if ShowsStatus(r) then Some("Status: " + r.status.value) else None,
      if StrTruthy(r.neighborhood) then Some("Area: " + r.neighborhood.value) else None,
      if StrTruthy(r.addedAt) then Some("Found: " + r.addedAt.value) else None ]
  }

  function NoteItems(r: StoredDeal): seq<string> {
    Present(NoteCandidates(r))
  }

  function Notes(r: StoredDeal): string {
    Join(NoteItems(r), NoteSeparator)
  }

  function FlagCandidates(r: StoredDeal): seq<Option<string>> {
    [ if BoolTruthy(r.isNew) then Some(NewFlag) else None,
      if r.propertyType == Val("land") then Some(LandFlag) else None,
      if r.propertyType == Val("multifamily") then Some(MultifamilyFlag) else None,
      if r.propertyType == Val("single_family") then Some(SingleFamilyFlag) else None,
      if PriceChanged(r) then Some(PriceChangedFlag) else None ]
  }

  function Flags(r: StoredDeal): seq<string> {
    Present(FlagCandidates(r))
  }

  /** The `i`-th entry of the batch as a dashboard deal. Feed entries carry no unit counts, so
      a feed deal never has a cost per door and its density reads 0; its priority is high
      exactly for fresh entries and never low; the raw freshness value is kept as it came. */
  function ToDeal(r: StoredDeal, i: int): (d: Deal)
    ensures d.id == FeedIdBase + i && d.source == Some(Pipeline)
    ensures d.unitsRes == None && d.unitsLodging == None && d.mixedUse == None
    ensures Metrics.CostPerDoor(d) == None && Metrics.UnitsPerAcre(d) == 0
    ensures d.priority == High <==> BoolTruthy(r.isNew)
    ensures d.priority != Low
    ensures d.isNew == r.isNew
    ensures d.name != ""
    ensures StrTruthy(r.address) ==> d.name == d.address == r.address.value
    ensures !StrTruthy(r.address) ==> d.name == "Unknown" && d.address == ""
    ensures d.zip == FirstFiveDigits(d.address)
    ensures d.lotSqFt.Some? <==> IntTruthy(r.lotSize)
    ensures d.lotSqFt.Some? ==> d.lotSqFt.value == r.lotSize.value
    ensures d.askPrice.Some? <==> IntTruthy(r.price)
    ensures d.askPrice.Some? ==> d.askPrice.value == r.price.value
    ensures d.zone.Some? <==> StrTruthy(r.zoning)
    ensures d.zone.Some? ==> d.zone.value == r.zoning.value
    ensures d.url.Some? <==> StrTruthy(r.url)
    ensures d.url.Some? ==> d.url.value == r.url.value
    ensures d.flags == Flags(r) && d.notes == Notes(r)
    ensures JsListTruthy(r.priceHistory) ==> d.priceHistory == r.priceHistory
    ensures !JsListTruthy(r.priceHistory) ==> d.priceHistory == Val([])
  {
    var address := StrOr(r.address, "");
    var zip := FirstFiveDigits(address);
    Deal(
      FeedIdBase + i,
      StrOr(r.address, "Unknown"),
      address,
      zip,
      IntOrNull(r.lotSize),
      StrOrNull(r.zoning),
      None,
      None,
      None,
      IntOrNull(r.price),
      Notes(r),
      Flags(r),
      if BoolTruthy(r.isNew) then High else Medium,
      StrOrNull(r.url),
      Some(Pipeline),
      r.isNew,
      if JsListTruthy(r.priceHistory) then r.priceHistory else Val([]))
  }

  /** The whole batch, in order. */
  function MapFeed(raws: seq<StoredDeal>): (ds: seq<Deal>)
    ensures |ds| == |raws|
    ensures forall i | 0 <= i < |ds| :: ds[i] == ToDeal(raws[i], i)
    ensures forall i | 0 <= i < |ds| :: ds[i].id == FeedIdBase + i
    ensures UniqueIds(ds)
  {
    seq(|raws|, i requires 0 <= i < |raws| => ToDeal(raws[i], i))
  }

  // ---- properties of the mapping ----

  /** The value the first `is_new` key would have given (`d.is_new === true`). */
  function StrictIsNew(r: StoredDeal): Field<bool> {
    Val(r.isNew == Val(true))
  }

  /** The later `is_new` key wins: a deal keeps the raw value, which differs from the strict
      boolean exactly when the entry's `is_new` is missing or null. */
  lemma LaterIsNewWins(r: StoredDeal, i: int)
    ensures ToDeal(r, i).isNew != StrictIsNew(r) <==> r.isNew.Absent? || r.isNew.Null?
  {
    var d := ToDeal(r, i);
    assert d.isNew == r.isNew;
    match r.isNew
    case Val(b) => assert StrictIsNew(r) == Val(b);
    case _ =>
  }

  /** The flags are exactly the labels of the fixed order whose condition holds. */
  function FlagWanted(r: StoredDeal, f: string): bool {
    (f == NewFlag && BoolTruthy(r.isNew))
    || (f == LandFlag && r.propertyType == Val("land"))
    || (f == MultifamilyFlag && r.propertyType == Val("multifamily"))
    || (f == SingleFamilyFlag && r.propertyType == Val("single_family"))
    || (f == PriceChangedFlag && PriceChanged(r))
  }

  predicate IsTypeFlag(f: string) {
    f == LandFlag || f == MultifamilyFlag || f == SingleFamilyFlag
  }

  function Piece(o: Option<string>): seq<string> {
    if o.Some? then [o.value] else []
  }

  function Keep(p: string -> bool, f: string): seq<string> {
    if p(f) then [f] else []
  }

  lemma FlagPieces(r: StoredDeal)
    ensures var c := FlagCandidates(r);
      Flags(r) == Piece(c[0]) + Piece(c[1]) + Piece(c[2]) + Piece(c[3]) + Piece(c[4])
  {
    var c := FlagCandidates(r);
    assert Present(c) == Piece(c[0]) + Present(c[1..]);
    assert Present(c[1..]) == Piece(c[1]) + Present(c[2..]);
    assert Present(c[2..]) == Piece(c[2]) + Present(c[3..]);
    assert Present(c[3..]) == Piece(c[3]) + Present(c[4..]);
    assert Present(c[4..]) == Piece(c[4]) + Present(c[5..]);
  }

  lemma FlagOrderPieces(p: string -> bool)
    ensures Filter(FlagOrder, p) == Keep(p, NewFlag) + Keep(p, LandFlag)
      + Keep(p, MultifamilyFlag) + Keep(p, SingleFamilyFlag) + Keep(p, PriceChangedFlag)
  {
    var o := FlagOrder;
    assert Filter(o, p) == Filter(o[..4], p) + Keep(p, PriceChangedFlag);
    assert Filter(o[..4], p) == Filter(o[..3], p) + Keep(p, SingleFamilyFlag) by {
      assert o[..4][..3] == o[..3];
    }
    assert Filter(o[..3], p) == Filter(o[..2], p) + Keep(p, MultifamilyFlag) by {
      assert o[..3][..2] == o[..2];
    }
    assert Filter(o[..2], p) == Filter(o[..1], p) + Keep(p, LandFlag) by {
      assert o[..2][..1] == o[..1];
    }
    assert Filter(o[..1], p) == Keep(p, NewFlag) by {
      assert o[..1][..0] == [];
    }
  }

  lemma FlagsByLabel(r: StoredDeal)
    ensures Flags(r) == Filter(FlagOrder, f => FlagWanted(r, f))
  {
    FlagPieces(r);
    FlagOrderPieces(f => FlagWanted(r, f));
  }

  /** The flags keep the fixed order and show "Price Changed" exactly when the history has
      more than one entry and "New" exactly for fresh entries. */
  lemma FlagsShape(r: StoredDeal)
    ensures IsSubseq(Flags(r), FlagOrder)
    ensures PriceChangedFlag in Flags(r) <==> PriceChanged(r)
    ensures NewFlag in Flags(r) <==> BoolTruthy(r.isNew)
  {
    FlagsByLabel(r);
    FilterIsSubseq(FlagOrder, f => FlagWanted(r, f));
    FilterMember(FlagOrder, f => FlagWanted(r, f), PriceChangedFlag);
    FilterMember(FlagOrder, f => FlagWanted(r, f), NewFlag);
  }

  /** At most one property-type flag is ever set. */
  lemma OneTypeFlag(r: StoredDeal)
    ensures |Filter(Flags(r), IsTypeFlag)| <= 1
  {
    FlagPieces(r);
    var c := FlagCandidates(r);
    var head, mid, tail := Piece(c[0]), Piece(c[1]) + Piece(c[2]) + Piece(c[3]), Piece(c[4]);
    assert Flags(r) == head + mid + tail;
    assert |mid| <= 1;
    FilterConcat(head + mid, tail, IsTypeFlag);
    FilterConcat(head, mid, IsTypeFlag);
    assert Filter(head, IsTypeFlag) == [] by {
      if c[0].Some? {
        assert head[..0] == [];
      }
    }
    assert Filter(tail, IsTypeFlag) == [] by {
      if c[4].Some? {
        assert tail[..0] == [];
      }
    }
  }

  /** Notes list only the present items: nothing present gives an empty note, and every
      present item can be found in the note. */
  lemma NotesShape(r: StoredDeal)
    ensures Notes(r) == "" <==> NoteItems(r) == []
    ensures forall i | 0 <= i < |NoteItems(r)| :: Contains(Notes(r), NoteItems(r)[i])
  {
    PresentNonEmpty(NoteCandidates(r));
    JoinParts(NoteItems(r), NoteSeparator);
  }

  /** The status item is shown exactly for a truthy status other than "unknown", and
      "Status: unknown" never appears. */
  lemma StatusItem(r: StoredDeal)
    ensures "Status: unknown" !in NoteItems(r)
    ensures ShowsStatus(r) <==> ("Status: " + StrOr(r.status, "")) in NoteItems(r)
  {
    var items := NoteItems(r);
    var c := NoteCandidates(r);
    assert c == c[..3] + [c[3]] + c[4..];
    PresentConcat(c[..3] + [c[3]], c[4..]);
    PresentConcat(c[..3], [c[3]]);
    assert items == Present(c[..3]) + Present([c[3]]) + Present(c[4..]);
    PresentInitials(c[..3], 'S');
    PresentInitials(c[4..], 'S');
    var st := "Status: " + StrOr(r.status, "");
    assert st[0] == 'S';
    assert "Status: unknown"[0] == 'S';
    if ShowsStatus(r) {
      assert Present([c[3]]) == [st];
      assert items[|Present(c[..3])|] == st;
    } else {
      assert Present([c[3]]) == [];
    }
    if c[3].Some? {
      assert Present([c[3]]) == [c[3].value];
      assert c[3].value != "Status: unknown" by {
        assert c[3].value[8..] == r.status.value;
        assert "Status: unknown"[8..] == "unknown";
      }
    }
  }

  lemma {:induction false} PresentConcat(a: seq<Option<string>>, b: seq<Option<string>>)
    ensures Present(a + b) == Present(a) + Present(b)
    decreases |a|
  {
    if |a| > 0 {
      assert (a + b)[0] == a[0];
      assert (a + b)[1..] == a[1..] + b;
      PresentConcat(a[1..], b);
    } else {
      assert a + b == b;
    }
  }

  lemma {:induction false} PresentNonEmpty(xs: seq<Option<string>>)
    requires forall i | 0 <= i < |xs| :: xs[i].Some? ==> xs[i].value != ""
    ensures forall i | 0 <= i < |Present(xs)| :: Present(xs)[i] != ""
    decreases |xs|
  {
    if |xs| > 0 {
      PresentNonEmpty(xs[1..]);
    }
  }

  predicate StartsWith(s: string, c: char) {
    |s| > 0 && s[0] == c
  }

  lemma {:induction false} PresentInitials(xs: seq<Option<string>>, c: char)
    requires forall i | 0 <= i < |xs| :: xs[i].Some? ==> !StartsWith(xs[i].value, c)
    ensures forall i | 0 <= i < |Present(xs)| :: !StartsWith(Present(xs)[i], c)
    decreases |xs|
  {
    if |xs| > 0 {
      PresentInitials(xs[1..], c);
    }
  }
}

=== FILE: lists.dfy ===
/** Order-preserving filtering and counting over sequences, with the facts the rest of the model
    relies on: a filter keeps exactly the elements that pass, in order, with their multiplicity. */
module Lists {

  function Filter<T>(s: seq<T>, p: T -> bool): (r: seq<T>)
    ensures |r| <= |s|
    ensures forall x | x in r :: x in s && p(x)
    decreases |s|
  {
    if |s| == 0 then []
    else if p(s[|s| - 1]) then Filter(s[..|s| - 1], p) + [s[|s| - 1]]
    else Filter(s[..|s| - 1], p)
  }

  function Count<T>(s: seq<T>, p: T -> bool): nat {
    |Filter(s, p)|
  }

  lemma {:induction false} FilterConcat<T>(a: seq<T>, b: seq<T>, p: T -> bool)
    ensures Filter(a + b, p) == Filter(a, p) + Filter(b, p)
    decreases |b|
  {
    if |b| == 0 {
      assert a + b == a;
    } else {
      var b' := b[..|b| - 1];
      assert (a + b)[..|a + b| - 1] == a + b';
      FilterConcat(a, b', p);
    }
  }

  /** A filter keeps every element that passes as often as it occurs, and nothing else. */
  lemma {:induction false} FilterMultiset<T>(s: seq<T>, p: T -> bool)
    ensures forall x :: multiset(Filter(s, p))[x] == if p(x) then multiset(s)[x] else 0
    decreases |s|
  {
    if |s| > 0 {
      var s' := s[..|s| - 1];
      assert s == s' + [s[|s| - 1]];
      FilterMultiset(s', p);
    }
  }

  lemma FilterSubMultiset<T>(s: seq<T>, p: T -> bool)
    ensures multiset(Filter(s, p)) <= multiset(s)
  {
    FilterMultiset(s, p);
  }

  /** An element is kept exactly when it occurs and passes. */
  lemma FilterMember<T>(s: seq<T>, p: T -> bool, x: T)
    ensures x in Filter(s, p) <==> x in s && p(x)
  {
    FilterMultiset(s, p);
    assert x in Filter(s, p) <==> multiset(Filter(s, p))[x] > 0;
    assert x in s <==> multiset(s)[x] > 0;
  }

  lemma {:induction false} FilterAll<T>(s: seq<T>, p: T -> bool)
    requires forall i | 0 <= i < |s| :: p(s[i])
    ensures Filter(s, p) == s
    decreases |s|
  {
    if |s| > 0 {
      FilterAll(s[..|s| - 1], p);
      assert s[..|s| - 1] + [s[|s| - 1]] == s;
    }
  }

  lemma {:induction false} FilterIdempotent<T>(s: seq<T>, p: T -> bool)
    ensures Filter(Filter(s, p), p) == Filter(s, p)
  {
    var f := Filter(s, p);
    forall i | 0 <= i < |f| ensures p(f[i]) {
      assert f[i] in f;
    }
    FilterAll(f, p);
  }

  /** A filter keeps the whole sequence exactly when every element passes. */
  lemma {:induction false} FilterKeepsAll<T>(s: seq<T>, p: T -> bool)
    ensures |Filter(s, p)| == |s| <==> forall i | 0 <= i < |s| :: p(s[i])
    decreases |s|
  {
    if |s| > 0 {
      var s' := s[..|s| - 1];
      FilterKeepsAll(s', p);
      if |Filter(s, p)| == |s| {
        assert p(s[|s| - 1]);
        assert forall i | 0 <= i < |s| - 1 :: s[i] == s'[i];
      }
    }
  }

  /** Filters by two tests that agree on every element give the same result. */
  lemma {:induction false} FilterAgree<T>(s: seq<T>, p: T -> bool, q: T -> bool)
    requires forall i | 0 <= i < |s| :: p(s[i]) == q(s[i])
    ensures Filter(s, p) == Filter(s, q)
    decreases |s|
  {
    if |s| > 0 {
      FilterAgree(s[..|s| - 1], p, q);
    }
  }

  /** Nothing passes, so nothing is kept. */
  lemma FilterNone<T>(s: seq<T>, p: T -> bool)
    requires forall i | 0 <= i < |s| :: !p(s[i])
    ensures Filter(s, p) == []
  {
    var r := Filter(s, p);
    if |r| > 0 {
      assert r[0] in r;
    }
  }

  /** `a` is `b` with some elements dropped, the rest in the same order. */
  predicate IsSubseq<T(==)>(a: seq<T>, b: seq<T>)
    decreases |b|
  {
    if |a| == 0 then true
    else if |b| == 0 then false
    else if a[|a| - 1] == b[|b| - 1] then IsSubseq(a[..|a| - 1], b[..|b| - 1])
    else IsSubseq(a, b[..|b| - 1])
  }

  /** What a filter keeps is a subsequence of its input. */
  lemma {:induction false} FilterIsSubseq<T>(s: seq<T>, p: T -> bool)
    ensures IsSubseq(Filter(s, p), s)
    decreases |s|
  {
    if |s| > 0 {
      var init := s[..|s| - 1];
      FilterIsSubseq(init, p);
      var f := Filter(init, p);
      if !p(s[|s| - 1]) && |f| > 0 {
        assert f[|f| - 1] in f;
      }
    }
  }

  /** `s.reduce((acc, x) => acc + f(x), 0)`. */
  function SumBy<T>(s: seq<T>, f: T -> int): int
    decreases |s|
  {
    if |s| == 0 then 0 else SumBy(s[..|s| - 1], f) + f(s[|s| - 1])
  }

  lemma {:induction false} SumByConcat<T>(a: seq<T>, b: seq<T>, f: T -> int)
    ensures SumBy(a + b, f) == SumBy(a, f) + SumBy(b, f)
    decreases |b|
  {
    if |b| == 0 {
      assert a + b == a;
    } else {
      var b' := b[..|b| - 1];
      assert (a + b)[..|a + b| - 1] == a + b';
      SumByConcat(a, b', f);
    }
  }

  /** A sum does not depend on the order of its terms. */
  lemma {:induction false} SumByPermutation<T>(a: seq<T>, b: seq<T>, f: T -> int)
    requires multiset(a) == multiset(b)
    ensures SumBy(a, f) == SumBy(b, f)
    decreases |a|
  {
    if |a| > 0 {
      var x := a[|a| - 1];
      var a' := a[..|a| - 1];
      assert a == a' + [x];
      assert x in multiset(b);
      var j :| 0 <= j < |b| && b[j] == x;
      var b' := b[..j] + b[j + 1..];
      assert b == b[..j] + [x] + b[j + 1..];
      assert multiset(b') == multiset(b) - multiset{x};
      assert multiset(a') == multiset(a) - multiset{x};
      SumByPermutation(a', b', f);
      SumByConcat(b[..j] + [x], b[j + 1..], f);
      SumByConcat(b[..j], [x], f);
      SumByConcat(b[..j], b[j + 1..], f);
      assert SumBy([x], f) == f(x) by {
        assert [x][..0] == [];
      }
    }
  }
}

=== FILE: metrics.dfy ===
/** The derived numbers the dashboard shows: cost per door, the density gauge, and the portfolio
    cards. JavaScript's floating-point arithmetic is modelled with exact rationals (`real`). */
module Metrics {
  import opened Base
  import opened Deals
  import opened Lists

  /** `Math.round`: the nearest integer, a half rounding up. */
  function Round(x: real): (r: int)
    ensures r as real - 0.5 <= x < r as real + 0.5
  {
    (x + 0.5).Floor
  }

  /** Both inputs of a per-door price are truthy (so 0 counts as missing). */
  predicate Priced(d: Deal) {
    Truthy(d.askPrice) && Truthy(d.unitsRes)
  }

  /** Cost per door in thousands (`cpd`): defined exactly for priced records, and then the
      integer nearest to askPrice / unitsRes / 1000. */
  function CostPerDoor(d: Deal): (r: Option<int>)
    ensures r.Some? <==> Priced(d)
    ensures r.Some? ==>
      var exact := d.askPrice.value as real / (d.unitsRes.value * 1000) as real;
      r.value as real - 0.5 <= exact < r.value as real + 0.5
  {
    if Priced(d) then
      var q := d.askPrice.value as real / d.unitsRes.value as real / 1000.0;
      DivTwice(d.askPrice.value, d.unitsRes.value, 1000);
      Some(Round(q))
    else None
  }

  lemma DivTwice(a: int, u: int, k: int)
    requires u != 0 && k > 0
    ensures a as real / u as real / k as real == a as real / (u * k) as real
  {
    var x := a as real / u as real;
    assert x * u as real == a as real;
    assert (u * k) as real == u as real * k as real;
  }

  // ---- density gauge ----

  const SqFtPerAcre := 43560
  /** Units per acre at which the gauge is full. */
  const GaugeCeiling := 150

  datatype Band = LowDensity | ModerateDensity | HighDensity

  /** Units per acre (`upa`): 0 without a truthy lot size; otherwise the integer nearest to
      units * 43560 / lotSqFt, absent units counting as 0. */
  function UnitsPerAcre(d: Deal): (r: int)
    ensures !Truthy(d.lotSqFt) ==> r == 0
    ensures Truthy(d.lotSqFt) ==>
      var exact := (OrZero(d.unitsRes) * SqFtPerAcre) as real / d.lotSqFt.value as real;
      r as real - 0.5 <= exact < r as real + 0.5
    ensures OrZero(d.unitsRes) >= 0 && OrZero(d.lotSqFt) >= 0 ==> r >= 0
  {
    var units := OrZero(d.unitsRes);
    var acres := OrZero(d.lotSqFt) as real / SqFtPerAcre as real;
    if acres != 0.0 then
      PerAcre(units, d.lotSqFt.value);
      Round(units as real / acres)
    else 0
  }

  lemma PerAcre(units: int, lot: int)
    requires lot != 0
    ensures units as real / (lot as real / SqFtPerAcre as real)
            == (units * SqFtPerAcre) as real / lot as real
    ensures units >= 0 && lot > 0 ==> (units * SqFtPerAcre) as real / lot as real >= 0.0
  {
    var acres := lot as real / SqFtPerAcre as real;
    var x := units as real / acres;
    assert x * acres == units as real;
    assert x * lot as real == (units * SqFtPerAcre) as real;
    if units >= 0 && lot > 0 {
      var y := (units * SqFtPerAcre) as real / lot as real;
      assert y * lot as real == (units * SqFtPerAcre) as real;
    }
  }

  /** Fill of the gauge in percent: proportional up to the 150-unit ceiling, full above it. */
  function GaugePercent(upa: int): (p: real)
    ensures p <= 100.0
    ensures upa >= 0 ==> 0.0 <= p
    ensures p == 100.0 <==> upa >= GaugeCeiling
    ensures upa <= GaugeCeiling ==> p * GaugeCeiling as real == upa as real * 100.0
  {
    var pct := upa as real / GaugeCeiling as real * 100.0;
    if pct < 100.0 then pct else 100.0
  }

  /** Colour band of the gauge, read off the percentage: above 60 high, above 35 moderate;
      in units per acre that is above 90, and from 53 to 90. */
  function DensityBand(upa: int): (b: Band)
    ensures b == HighDensity <==> upa > 90
    ensures b == ModerateDensity <==> 53 <= upa <= 90
    ensures b == LowDensity <==> upa <= 52
  {
    var pct := GaugePercent(upa);
    if pct > 60.0 then HighDensity else if pct > 35.0 then ModerateDensity else LowDensity
  }

  // ---- portfolio cards ----

  function UnitsOrZero(d: Deal): int {
    OrZero(d.unitsRes)
  }

  function AskOrZero(d: Deal): int {
    OrZero(d.askPrice)
  }

  /** Sum of `unitsRes`, absent counting as 0. */
  function TotalUnits(ds: seq<Deal>): int {
    SumBy(ds, UnitsOrZero)
  }

  /** Sum of `askPrice`, absent counting as 0. */
  function TotalAsk(ds: seq<Deal>): int {
    SumBy(ds, AskOrZero)
  }

  /** Number of high-priority records. */
  function HighCount(ds: seq<Deal>): (r: nat)
    ensures r <= |ds|
    ensures r == 0 <==> forall i | 0 <= i < |ds| :: ds[i].priority != High
    ensures r == |ds| <==> forall i | 0 <= i < |ds| :: ds[i].priority == High
    decreases |ds|
  {
    if |ds| == 0 then 0
    else
      var last := ds[|ds| - 1];
      var prefix := ds[..|ds| - 1];
      HighCount(prefix) + if last.priority == High then 1 else 0
  }

  /** Number of records whose mixed-use flag is `true`; unknown and `false` do not count. */
  function MixedUseCount(ds: seq<Deal>): (r: nat)
    ensures r <= |ds|
    ensures r == 0 <==> forall i | 0 <= i < |ds| :: ds[i].mixedUse != Some(true)
    ensures r == |ds| <==> forall i | 0 <= i < |ds| :: ds[i].mixedUse == Some(true)
    decreases |ds|
  {
    if |ds| == 0 then 0
    else
      var last := ds[|ds| - 1];
      var prefix := ds[..|ds| - 1];
      MixedUseCount(prefix) + if last.mixedUse == Some(true) then 1 else 0
  }

  function PerDoor(d: Deal): real
    requires Priced(d)
  {
    d.askPrice.value as real / d.unitsRes.value as real
  }

  /** Best (lowest) ask per door over the priced records, or absent when none is priced. */
  function BestPerDoor(ds: seq<Deal>): (r: Option<real>)
    ensures r.None? <==> forall i | 0 <= i < |ds| :: !Priced(ds[i])
    ensures r.Some? ==> exists i | 0 <= i < |ds| :: Priced(ds[i]) && r.value == PerDoor(ds[i])
    ensures r.Some? ==> forall i | 0 <= i < |ds| && Priced(ds[i]) :: r.value <= PerDoor(ds[i])
    decreases |ds|
  {
    if |ds| == 0 then None
    else
      var last := ds[|ds| - 1];
      var prefix := ds[..|ds| - 1];
      var best := BestPerDoor(prefix);
      assert forall i | 0 <= i < |prefix| :: prefix[i] == ds[i];
      if !Priced(last) then best
      else if best.None? || PerDoor(last) < best.value then Some(PerDoor(last))
      else best
  }

  function HighWeight(d: Deal): int {
    if d.priority == High then 1 else 0
  }

  function MixedUseWeight(d: Deal): int {
    if d.mixedUse == Some(true) then 1 else 0
  }

  lemma {:induction false} CountsAsSums(ds: seq<Deal>)
    ensures HighCount(ds) == SumBy(ds, HighWeight)
    ensures MixedUseCount(ds) == SumBy(ds, MixedUseWeight)
    decreases |ds|
  {
    if |ds| > 0 {
      CountsAsSums(ds[..|ds| - 1]);
    }
  }

  /** The cards of a concatenation add up: merging the curated list with the feed adds the
      feed's totals and counts to the curated ones. */
  lemma CardsAdditive(a: seq<Deal>, b: seq<Deal>)
    ensures TotalUnits(a + b) == TotalUnits(a) + TotalUnits(b)
    ensures TotalAsk(a + b) == TotalAsk(a) + TotalAsk(b)
    ensures HighCount(a + b) == HighCount(a) + HighCount(b)
    ensures MixedUseCount(a + b) == MixedUseCount(a) + MixedUseCount(b)
  {
    SumByConcat(a, b, UnitsOrZero);
    SumByConcat(a, b, AskOrZero);
    CountsAsSums(a);
    CountsAsSums(b);
    CountsAsSums(a + b);
    SumByConcat(a, b, HighWeight);
    SumByConcat(a, b, MixedUseWeight);
  }

  /** The cards depend only on which records there are, not on their order. */
  lemma CardsIgnoreOrder(a: seq<Deal>, b: seq<Deal>)
    requires multiset(a) == multiset(b)
    ensures TotalUnits(a) == TotalUnits(b) && TotalAsk(a) == TotalAsk(b)
    ensures HighCount(a) == HighCount(b) && MixedUseCount(a) == MixedUseCount(b)
    ensures BestPerDoor(a) == BestPerDoor(b)
  {
    SumByPermutation(a, b, UnitsOrZero);
    SumByPermutation(a, b, AskOrZero);
    CountsAsSums(a);
    CountsAsSums(b);
    SumByPermutation(a, b, HighWeight);
    SumByPermutation(a, b, MixedUseWeight);
    forall i | 0 <= i < |a| ensures a[i] in b {
      assert a[i] in multiset(a);
    }
    forall i | 0 <= i < |b| ensures b[i] in a {
      assert b[i] in multiset(b);
    }
    BestBySameRecords(a, b);
  }

  /** The best price per door depends only on which records occur. */
  lemma BestBySameRecords(a: seq<Deal>, b: seq<Deal>)
    requires forall i | 0 <= i < |a| :: a[i] in b
    requires forall i | 0 <= i < |b| :: b[i] in a
    ensures BestPerDoor(a) == BestPerDoor(b)
  {
    BestOfSubset(a, b);
    BestOfSubset(b, a);
  }

  /** Adding records can only lower the best price per door. */
  lemma BestOfSubset(a: seq<Deal>, b: seq<Deal>)
    requires forall i | 0 <= i < |a| :: a[i] in b
    ensures BestPerDoor(a).Some? ==>
      BestPerDoor(b).Some? && BestPerDoor(b).value <= BestPerDoor(a).value
  {
    var ra := BestPerDoor(a);
    if ra.Some? {
      var i :| 0 <= i < |a| && Priced(a[i]) && ra.value == PerDoor(a[i]);
      assert a[i] in b;
      var j :| 0 <= j < |b| && b[j] == a[i];
    }
  }

  /** Records without a unit count add nothing to the unit total. */
  lemma {:induction false} TotalUnitsSkipsAbsent(ds: seq<Deal>)
    ensures TotalUnits(ds) == TotalUnits(Filter(ds, (d: Deal) => d.unitsRes.Some?))
    decreases |ds|
  {
    if |ds| > 0 {
      TotalUnitsSkipsAbsent(ds[..|ds| - 1]);
      var p := (d: Deal) => d.unitsRes.Some?;
      var last := ds[|ds| - 1];
      if p(last) {
        SumByConcat(Filter(ds[..|ds| - 1], p), [last], UnitsOrZero);
        assert [last][..0] == [];
      }
    }
  }
}

=== FILE: pipeline.dfy ===
/** How the two halves meet: the deals file the scraper writes is the feed the dashboard maps. */
module Pipeline {
  import opened Base
  import opened Records
  import opened Deals
  import Feed
  import Scraper

  /** After a run, the dashboard ranks exactly the deals this run added as high priority; every
      deal kept from earlier runs shows as medium. */
  lemma OnlyNewDealsRankHigh(ls: seq<Listing>, existing: seq<StoredDeal>, today: string, stamp: string, now: string)
    requires Scraper.Reconcile(ls, existing, today, stamp, now).Success?
    ensures var saved := Scraper.Reconcile(ls, existing, today, stamp, now).value;
      var n := |Scraper.Deduplicate(ls, existing, today, stamp).value.trulyNew|;
      forall i | 0 <= i < |saved| ::
        (Feed.MapFeed(saved)[i].priority == High <==> i < n)
        && (i >= n ==> Feed.MapFeed(saved)[i].priority == Medium)
  {
    var p := Scraper.Deduplicate(ls, existing, today, stamp).value;
    assert Scraper.Reconcile(ls, existing, today, stamp, now).value == Scraper.Merge(p.trulyNew, p.deals, now);
  }

  /** A deal the scraper has just added is flagged new on the dashboard and never "price
      changed": its history holds at most one entry. */
  lemma FreshDealFlags(l: Listing, now: string)
    ensures Feed.NewFlag in Feed.Flags(Scraper.Format(l, now))
    ensures Feed.PriceChangedFlag !in Feed.Flags(Scraper.Format(l, now))
  {
    Feed.FlagsShape(Scraper.Format(l, now));
  }

  /** A deal whose price the scraper has logged on top of an earlier entry shows "price changed". */
  lemma LoggedDealFlags(d: StoredDeal, price: int, today: string, stamp: string)
    requires PyListTruthy(d.priceHistory)
    ensures Feed.PriceChangedFlag in Feed.Flags(Scraper.LogPrice(d, price, today, stamp).value)
  {
    Feed.FlagsShape(Scraper.LogPrice(d, price, today, stamp).value);
  }
}

=== FILE: portfolio.dfy ===
/** The figures the dashboard shows for the ten curated parcels it starts with. */
module Portfolio {
  import opened Base
  import opened Text
  import opened Deals
  import opened Lists
  import opened Metrics
  import Query

  /** Parcel 5 (225000 for 8 units) costs 28k a door; parcel 1 has no asking price, so none. */
  lemma CuratedCostPerDoor()
    ensures CostPerDoor(CuratedDeals[4]) == Some(28)
    ensures CostPerDoor(CuratedDeals[0]) == None
    ensures CostPerDoor(CuratedDeals[7]) == None
  {
  }

  /** Parcel 1 (11 units on 16000 sq ft) is about 30 units an acre, low density; parcel 7
      (46 units on 15000 sq ft) is about 134, high density. */
  lemma CuratedDensity()
    ensures UnitsPerAcre(CuratedDeals[0]) == 30
    ensures DensityBand(UnitsPerAcre(CuratedDeals[0])) == LowDensity
    ensures UnitsPerAcre(CuratedDeals[6]) == 134
    ensures DensityBand(UnitsPerAcre(CuratedDeals[6])) == HighDensity
    ensures GaugePercent(UnitsPerAcre(CuratedDeals[6])) == 13400.0 / 150.0
  {
  }

  const Asks: seq<Option<int>> := [None, Some(1200000), Some(600000), Some(750000), Some(225000),
    Some(1540000), Some(2600000), Some(3950000), Some(5900000), Some(775000)]

  const Units: seq<Option<int>> := [Some(11), Some(21), Some(10), Some(9), Some(8), Some(26), Some(46),
    None, Some(70), Some(35)]

  /** The asking prices and residential unit counts of the curated parcels, in order. */
  lemma CuratedFigures()
    ensures |CuratedDeals| == 10
    ensures forall i | 0 <= i < 10 :: CuratedDeals[i].askPrice == Asks[i]
    ensures forall i | 0 <= i < 10 :: CuratedDeals[i].unitsRes == Units[i]
  {
  }

  /** The "Total Units" card: absent unit counts add nothing. */
  lemma CuratedTotalUnits()
    ensures TotalUnits(CuratedDeals) == 236
  {
    var c := CuratedDeals;
    CuratedFigures();
    assert c[..0] == [];
    SumPrefix(c, UnitsOrZero, 0);
    assert SumBy(c[..1], UnitsOrZero) == 11;
    SumPrefix(c, UnitsOrZero, 1);
    assert SumBy(c[..2], UnitsOrZero) == 32;
    SumPrefix(c, UnitsOrZero, 2);
    assert SumBy(c[..3], UnitsOrZero) == 42;
    SumPrefix(c, UnitsOrZero, 3);
    assert SumBy(c[..4], UnitsOrZero) == 51;
    SumPrefix(c, UnitsOrZero, 4);
    assert SumBy(c[..5], UnitsOrZero) == 59;
    SumPrefix(c, UnitsOrZero, 5);
    assert SumBy(c[..6], UnitsOrZero) == 85;
    SumPrefix(c, UnitsOrZero, 6);
    assert SumBy(c[..7], UnitsOrZero) == 131;
    SumPrefix(c, UnitsOrZero, 7);
    assert SumBy(c[..8], UnitsOrZero) == 131;
    SumPrefix(c, UnitsOrZero, 8);
    assert SumBy(c[..9], UnitsOrZero) == 201;
    SumPrefix(c, UnitsOrZero, 9);
    assert SumBy(c[..10], UnitsOrZero) == 236;
    assert c[..10] == c;
  }

  /** The "Pipeline Value" card: absent asking prices add nothing. */
  lemma CuratedTotalAsk()
    ensures TotalAsk(CuratedDeals) == 17540000
  {
    var c := CuratedDeals;
    CuratedFigures();
    assert c[..0] == [];
    SumPrefix(c, AskOrZero, 0);
    assert SumBy(c[..1], AskOrZero) == 0;
    SumPrefix(c, AskOrZero, 1);
    assert SumBy(c[..2], AskOrZero) == 1200000;
    SumPrefix(c, AskOrZero, 2);
    assert SumBy(c[..3], AskOrZero) == 1800000;
    SumPrefix(c, AskOrZero, 3);
    assert SumBy(c[..4], AskOrZero) == 2550000;
    SumPrefix(c, AskOrZero, 4);
    assert SumBy(c[..5], AskOrZero) == 2775000;
    SumPrefix(c, AskOrZero, 5);
    assert SumBy(c[..6], AskOrZero) == 4315000;
    SumPrefix(c, AskOrZero, 6);
    assert SumBy(c[..7], AskOrZero) == 6915000;
    SumPrefix(c, AskOrZero, 7);
    assert SumBy(c[..8], AskOrZero) == 10865000;
    SumPrefix(c, AskOrZero, 8);
    assert SumBy(c[..9], AskOrZero) == 16765000;
    SumPrefix(c, AskOrZero, 9);
    assert SumBy(c[..10], AskOrZero) == 17540000;
    assert c[..10] == c;
  }

  lemma SumPrefix(s: seq<Deal>, f: Deal -> int, k: nat)
    requires k < |s|
    ensures SumBy(s[..k + 1], f) == SumBy(s[..k], f) + f(s[k])
  {
    assert s[..k + 1][..k] == s[..k];
  }

  /** A priced record whose ask per door is no more than any other priced record's is the best. */
  lemma BestIsLowest(ds: seq<Deal>, j: nat)
    requires j < |ds| && Priced(ds[j])
    requires forall i | 0 <= i < |ds| && Priced(ds[i]) :: PerDoor(ds[j]) <= PerDoor(ds[i])
    ensures BestPerDoor(ds) == Some(PerDoor(ds[j]))
  {
  }

  /** The cheapest door among the curated parcels is parcel 10's, 775000 over 35 units. */
  lemma CuratedBestPerDoor()
    ensures BestPerDoor(CuratedDeals) == Some(775000.0 / 35.0)
  {
    var c := CuratedDeals;
    CuratedFigures();
    forall i | 0 <= i < |c| && Priced(c[i]) ensures PerDoor(c[9]) <= PerDoor(c[i]) {
      assert PerDoor(c[i]) == Asks[i].value as real / Units[i].value as real;
    }
    BestIsLowest(c, 9);
  }

  /** Searching "wynwood" finds parcel 10 through its name. */
  lemma SearchFindsWynwood()
    ensures Query.Matches(CuratedDeals[9], Lower("wynwood"))
  {
    var nm := "NW 5th Ave (Wynwood)";
    assert CuratedDeals[9].name == nm;
    var name := Lower(nm);
    assert Lower("wynwood") == "wynwood";
    assert name[12..19] == "wynwood";
    assert OccursAt(name, "wynwood", 12);
  }
}

=== FILE: query.dfy ===
/** The table's view: source filter, then text search, then the stable sort on the active
    column, plus the rule that a header click toggles or switches the sort. */
module Query {
  import opened Base
  import opened Text
  import opened Lists
  import opened Deals
  import opened Sorting

  /** The source toggle: "all", or one provenance. */
  datatype SourceFilter = AllSources | OnlySource(src: Source)

  /** The sortable numeric and priority columns. */
  datatype SortKey = ByPriority | ByLotSqFt | ByUnitsRes | ByAskPrice

  datatype SortState = SortState(key: SortKey, dir: Sign)

  /** The table opens sorted by priority, ascending. */
  const InitialSort := SortState(ByPriority, 1)

  /** `av == null ? Infinity : av`: a present value keeps its number, zero included. */
  function OrInfinity(o: Option<int>): (e: Ext)
    ensures e == Inf <==> o.None?
  {
    if o.Some? then Fin(o.value) else Inf
  }

  /** The value a record is compared by under `k`; priorities go through their rank. */
  function SortValue(k: SortKey, d: Deal): Ext {
    match k
    case ByPriority => Fin(PriorityRank(d.priority))
    case ByLotSqFt => OrInfinity(d.lotSqFt)
    case ByUnitsRes => OrInfinity(d.unitsRes)
    case ByAskPrice => OrInfinity(d.askPrice)
  }

  function KeyFn(k: SortKey): Deal -> Ext {
    d => SortValue(k, d)
  }

  // ---- filter and search ----

  predicate FromSource(d: Deal, sel: SourceFilter) {
    sel.AllSources? || d.source == Some(sel.src)
  }

  function BySource(ds: seq<Deal>, sel: SourceFilter): seq<Deal> {
    if sel.AllSources? then ds else Filter(ds, d => FromSource(d, sel))
  }

  /** A query is applied only when something is left after trimming. */
  predicate QueryActive(q: string) {
    JsTrim(q) != ""
  }

  /** The lower-cased (untrimmed) query occurs in the name, address, zone, notes or a flag. */
  predicate Matches(d: Deal, f: string) {
    Contains(Lower(d.name), f) || Contains(Lower(d.address), f)
    || Contains(Lower(d.zone.GetOr("")), f) || Contains(Lower(d.notes), f)
    || exists i | 0 <= i < |d.flags| :: Contains(Lower(d.flags[i]), f)
  }

  function Search(ds: seq<Deal>, q: string): seq<Deal> {
    if QueryActive(q) then Filter(ds, d => Matches(d, Lower(q))) else ds
  }

  /** Whether a record survives both filters. */
  predicate Shown(d: Deal, sel: SourceFilter, q: string) {
    FromSource(d, sel) && (QueryActive(q) ==> Matches(d, Lower(q)))
  }

  /** The `sorted` memo. */
  function View(deals: seq<Deal>, sel: SourceFilter, q: string, st: SortState): seq<Deal> {
    InsertionSort(Search(BySource(deals, sel), q), KeyFn(st.key), st.dir)
  }

  /** A header click: the active column flips direction, another column starts ascending. */
  function Toggle(st: SortState, k: SortKey): (r: SortState)
    ensures r.key == k
    ensures r.dir == (if st.key == k then -(st.dir as int) else 1)
  {
    if st.key == k then SortState(k, st.dir * -1) else SortState(k, 1)
  }

  // ---- properties ----

  /** The view holds each record as often as the collection does when it passes the source
      filter and the search, and not at all otherwise. */
  lemma ViewContents(deals: seq<Deal>, sel: SourceFilter, q: string, st: SortState)
    ensures forall x :: multiset(View(deals, sel, q, st))[x]
                        == if Shown(x, sel, q) then multiset(deals)[x] else 0
    ensures multiset(View(deals, sel, q, st)) <= multiset(deals)
  {
    var bySrc := BySource(deals, sel);
    var l := Search(bySrc, q);
    SourceFilterShape(deals, sel);
    SearchCounts(bySrc, q);
    SortPermutes(l, KeyFn(st.key), st.dir);
    forall x ensures multiset(View(deals, sel, q, st))[x]
                     == if Shown(x, sel, q) then multiset(deals)[x] else 0 {
      assert multiset(View(deals, sel, q, st))[x] == multiset(l)[x];
    }
  }

  lemma SearchCounts(ds: seq<Deal>, q: string)
    ensures forall x :: multiset(Search(ds, q))[x]
                        == if QueryActive(q) ==> Matches(x, Lower(q)) then multiset(ds)[x] else 0
  {
    if QueryActive(q) {
      FilterMultiset(ds, d => Matches(d, Lower(q)));
    }
  }

  /** The view is the filtered list put in order: sorted by the active column and stable, so
      any stable sort of the filtered list gives the same table. */
  lemma ViewOrder(deals: seq<Deal>, sel: SourceFilter, q: string, st: SortState)
    ensures Sorted(View(deals, sel, q, st), KeyFn(st.key), st.dir)
    ensures Stable(View(deals, sel, q, st), Search(BySource(deals, sel), q), KeyFn(st.key))
    ensures forall r :: Sorted(r, KeyFn(st.key), st.dir)
                        && Stable(r, Search(BySource(deals, sel), q), KeyFn(st.key))
                        ==> r == View(deals, sel, q, st)
  {
    var l := Search(BySource(deals, sel), q);
    SortSorts(l, KeyFn(st.key), st.dir);
    SortStable(l, KeyFn(st.key), st.dir);
    forall r | Sorted(r, KeyFn(st.key), st.dir) && Stable(r, l, KeyFn(st.key))
      ensures r == View(deals, sel, q, st)
    {
      EngineSortAgrees(l, r, KeyFn(st.key), st.dir);
    }
  }

  /** By priority, ascending: every high record comes before every medium one, and every
      medium one before every low one. */
  lemma PriorityOrder(deals: seq<Deal>, sel: SourceFilter, q: string, i: int, j: int)
    requires 0 <= i < j < |View(deals, sel, q, InitialSort)|
    ensures var v := View(deals, sel, q, InitialSort);
      PriorityRank(v[i].priority) <= PriorityRank(v[j].priority)
  {
    ViewOrder(deals, sel, q, InitialSort);
    var v := View(deals, sel, q, InitialSort);
    assert Compare(KeyFn(ByPriority)(v[i]), KeyFn(ByPriority)(v[j]), 1) <= 0;
  }

  /** A missing value sorts last when ascending and first when descending. */
  lemma MissingValuesPlacement(deals: seq<Deal>, sel: SourceFilter, q: string, st: SortState,
                               i: int, j: int)
    requires 0 <= i < j < |View(deals, sel, q, st)|
    ensures var v := View(deals, sel, q, st);
      (st.dir == 1 && SortValue(st.key, v[i]) == Inf ==> SortValue(st.key, v[j]) == Inf)
      && (st.dir == -1 && SortValue(st.key, v[j]) == Inf ==> SortValue(st.key, v[i]) == Inf)
  {
    ViewOrder(deals, sel, q, st);
    InfinityPlacement(View(deals, sel, q, st), KeyFn(st.key), st.dir, i, j);
  }

  /** "all" keeps everything; otherwise exactly the records of that source, in order. */
  lemma SourceFilterShape(ds: seq<Deal>, sel: SourceFilter)
    ensures sel.AllSources? ==> BySource(ds, sel) == ds
    ensures forall x :: multiset(BySource(ds, sel))[x]
                        == if FromSource(x, sel) then multiset(ds)[x] else 0
    ensures IsSubseq(BySource(ds, sel), ds)
  {
    if sel.OnlySource? {
      FilterMultiset(ds, d => FromSource(d, sel));
      FilterIsSubseq(ds, d => FromSource(d, sel));
    } else {
      SubseqRefl(ds);
    }
  }

  lemma {:induction false} SubseqRefl(s: seq<Deal>)
    ensures IsSubseq(s, s)
    decreases |s|
  {
    if |s| > 0 {
      SubseqRefl(s[..|s| - 1]);
    }
  }

  predicate NoSource(d: Deal) {
    d.source.None?
  }

  lemma BySourceCounts(ds: seq<Deal>, sel: SourceFilter, x: Deal)
    ensures multiset(BySource(ds, sel))[x] == if FromSource(x, sel) then multiset(ds)[x] else 0
  {
    if sel.OnlySource? {
      FilterMultiset(ds, d => FromSource(d, sel));
    }
  }

  /** The curated view, the pipeline view and the records without a source (those created
      from the blank draft) split the collection. */
  lemma SourcePartition(ds: seq<Deal>)
    ensures multiset(BySource(ds, OnlySource(Curated))) + multiset(BySource(ds, OnlySource(Pipeline)))
            + multiset(Filter(ds, NoSource)) == multiset(ds)
  {
    var c, p, n := BySource(ds, OnlySource(Curated)), BySource(ds, OnlySource(Pipeline)),
                   Filter(ds, NoSource);
    FilterMultiset(ds, NoSource);
    forall x ensures (multiset(c) + multiset(p) + multiset(n))[x] == multiset(ds)[x] {
      BySourceCounts(ds, OnlySource(Curated), x);
      BySourceCounts(ds, OnlySource(Pipeline), x);
      assert multiset(n)[x] == if NoSource(x) then multiset(ds)[x] else 0;
      match x.source
      case Some(Curated) =>
      case Some(Pipeline) =>
      case None =>
    }
    assert multiset(c) + multiset(p) + multiset(n) == multiset(ds);
  }

  /** When every record has a source, the curated and pipeline views together are "all". */
  lemma CuratedPlusPipeline(ds: seq<Deal>)
    requires forall i | 0 <= i < |ds| :: ds[i].source.Some?
    ensures multiset(BySource(ds, OnlySource(Curated))) + multiset(BySource(ds, OnlySource(Pipeline)))
            == multiset(BySource(ds, AllSources))
  {
    SourcePartition(ds);
    NoSourceEmpty(ds);
  }

  lemma NoSourceEmpty(ds: seq<Deal>)
    requires forall i | 0 <= i < |ds| :: ds[i].source.Some?
    ensures Filter(ds, NoSource) == []
  {
    if |Filter(ds, NoSource)| > 0 {
      var y := Filter(ds, NoSource)[0];
      assert y in Filter(ds, NoSource);
    }
  }

  /** A blank query, or one of only white space, keeps every record. */
  lemma BlankQueryKeepsAll(ds: seq<Deal>, q: string)
    requires forall i | 0 <= i < |q| :: IsJsSpace(q[i])
    ensures Search(ds, q) == ds
  {
    StripEmpty(q, IsJsSpace);
  }

  /** A query with something besides white space keeps exactly the matching records. */
  lemma ActiveQueryKeepsMatches(ds: seq<Deal>, q: string)
    requires exists i | 0 <= i < |q| :: !IsJsSpace(q[i])
    ensures forall x :: multiset(Search(ds, q))[x]
                        == if Matches(x, Lower(q)) then multiset(ds)[x] else 0
  {
    StripEmpty(q, IsJsSpace);
    FilterMultiset(ds, d => Matches(d, Lower(q)));
  }

  /** Clicking the active column twice restores the sort; clicking another column twice leaves
      it selected and descending. */
  lemma ToggleTwice(st: SortState, k: SortKey)
    ensures st.key == k ==> Toggle(Toggle(st, k), k) == st
    ensures st.key != k ==> Toggle(Toggle(st, k), k) == SortState(k, -1)
  {
  }
}

=== FILE: records.dfy ===
/** The JSON shapes exchanged between the scraper and the dashboard: a listing as extracted from a
    search page, and an entry of the deals file the scraper writes and the dashboard fetches.
    Every key may be missing or null, so each one is a `Field`. */
module Records {
  import opened Base

  /** One `price_history` entry: `{"price": …, "date": …}`. */
  datatype PriceEntry = PriceEntry(price: Field<int>, date: Field<string>)

  /** A listing dict, after the scraper has tagged it with its neighborhood. */
  datatype Listing = Listing(
    address: Field<string>,
    price: Field<int>,
    lotSize: Field<int>,
    beds: Field<int>,
    baths: Field<int>,
    sqft: Field<int>,
    propertyType: Field<string>,
    url: Field<string>,
    status: Field<string>,
    neighborhood: Field<string>)

  /** An entry of the deals file. */
  datatype StoredDeal = StoredDeal(
    address: Field<string>,
    neighborhood: Field<string>,
    price: Field<int>,
    lotSize: Field<int>,
    beds: Field<int>,
    baths: Field<int>,
    sqft: Field<int>,
    propertyType: Field<string>,
    status: Field<string>,
    zoning: Field<string>,
    url: Field<string>,
    addedAt: Field<string>,
    lastSeen: Field<string>,
    isNew: Field<bool>,
    priceHistory: Field<seq<PriceEntry>>)
}

=== FILE: scraper.dfy ===
/** The scraper's reconciliation of freshly extracted listings with the deals file: the address
    index, duplicate detection with price-history logging, the formatting of new deals, and the
    merge that puts new deals first and clears the "new" mark on the others. Also the table that
    turns configured property types into the search site's filter names. */
module Scraper {
  import opened Base
  import opened Text
  import opened Lists
  import opened Records

  // ---- property types in the search URL ----

  /** The search site's filter value for one of our property type names. */
  function SiteType(t: string): (r: Option<string>)
    ensures r.Some? <==> t in {"single_family", "multifamily", "land"}
  {
    if t == "single_family" then Some("house")
    else if t == "multifamily" then Some("multi_family")
    else if t == "land" then Some("lot")
    else None
  }

  /** The table read backwards. */
  function OurType(z: string): Option<string> {
    if z == "house" then Some("single_family")
    else if z == "multi_family" then Some("multifamily")
    else if z == "lot" then Some("land")
    else None
  }

  predicate KnownType(t: string) {
    SiteType(t).Some?
  }

  /** The list comprehension over the configured types: mapped in order, unknown names dropped. */
  function SiteTypes(ts: seq<string>): (r: seq<string>)
    ensures |r| <= |ts|
    ensures forall z | z in r :: z in {"house", "multi_family", "lot"}
    decreases |ts|
  {
    if |ts| == 0 then []
    else
      var t := ts[|ts| - 1];
      SiteTypes(ts[..|ts| - 1]) + if SiteType(t).Some? then [SiteType(t).value] else []
  }

  function OurTypes(zs: seq<string>): seq<string>
    decreases |zs|
  {
    if |zs| == 0 then []
    else
      var z := zs[|zs| - 1];
      OurTypes(zs[..|zs| - 1]) + if OurType(z).Some? then [OurType(z).value] else []
  }

  /** The table is one-to-one: reading it backwards recovers every name it knows. */
  lemma TypeTableInverse(t: string, z: string)
    ensures SiteType(t).Some? ==> OurType(SiteType(t).value) == Some(t)
    ensures OurType(z).Some? ==> SiteType(OurType(z).value) == Some(z)
  {
  }

  /** Mapping a list of types and mapping it back gives the known types, in the given order. */
  lemma {:induction false} SiteTypesRoundTrip(ts: seq<string>)
    ensures OurTypes(SiteTypes(ts)) == Filter(ts, KnownType)
    decreases |ts|
  {
    if |ts| > 0 {
      var t := ts[|ts| - 1];
      var front := SiteTypes(ts[..|ts| - 1]);
      var tail := if SiteType(t).Some? then [SiteType(t).value] else [];
      SiteTypesRoundTrip(ts[..|ts| - 1]);
      OurTypesConcat(front, tail);
      if SiteType(t).Some? {
        var tl := [SiteType(t).value];
        assert tl[..0] == [];
        assert OurTypes(tl) == OurTypes([]) + [t];
      }
    }
  }

  lemma {:induction false} OurTypesConcat(a: seq<string>, b: seq<string>)
    ensures OurTypes(a + b) == OurTypes(a) + OurTypes(b)
    decreases |b|
  {
    if |b| == 0 {
      assert a + b == a;
    } else {
      assert (a + b)[..|a + b| - 1] == a + b[..|b| - 1];
      OurTypesConcat(a, b[..|b| - 1]);
    }
  }

  /** Mapping two lists of types one after the other is mapping their concatenation. */
  lemma {:induction false} SiteTypesConcat(a: seq<string>, b: seq<string>)
    ensures SiteTypes(a + b) == SiteTypes(a) + SiteTypes(b)
    decreases |b|
  {
    if |b| == 0 {
      assert a + b == a;
    } else {
      assert (a + b)[..|a + b| - 1] == a + b[..|b| - 1];
      SiteTypesConcat(a, b[..|b| - 1]);
    }
  }

  // ---- address keys and the index of existing deals ----

  /** Why a run stops with a Python exception: `.lower()` on an address stored as `None`, or an
      append to a `price_history` that is missing or `None`. */
  datatype Fault = AddressIsNone | NoHistoryList

  /** Lower-cased, then stripped of surrounding white space: the result has no upper-case ASCII
      letter and no Python white space at either end. */
  function Normalize(s: string): (r: string)
    ensures s == "" ==> r == ""
    ensures forall i | 0 <= i < |r| :: !('A' <= r[i] <= 'Z')
    ensures |r| > 0 ==> !IsPySpace(r[0]) && !IsPySpace(r[|r| - 1])
  {
    var l := Lower(s);
    StripKeepsChars(l, IsPySpace, c => !('A' <= c <= 'Z'));
    StripTrims(l, IsPySpace);
    PyStrip(l)
  }

  /** Two addresses that differ only in surrounding white space get the same key. */
  lemma NormalizeIgnoresPadding(w: string, s: string, w': string)
    requires forall i | 0 <= i < |w| :: IsPySpace(w[i])
    requires forall i | 0 <= i < |w'| :: IsPySpace(w'[i])
    ensures Normalize(w + s + w') == Normalize(s)
  {
    LowerConcat(w + s, w');
    LowerConcat(w, s);
    assert Lower(w) == w;
    assert Lower(w') == w';
    assert Lower(w + s + w') == w + Lower(s) + w';
    StripPadding(w, Lower(s), w', IsPySpace);
  }

  /** Two addresses that differ only in ASCII case get the same key. */
  lemma NormalizeIgnoresCase(s: string)
    ensures Normalize(Lower(s)) == Normalize(s)
  {
    LowerIdempotent(s);
  }

  /** An address already in lower case and without surrounding white space is its own key, so
      the key is made of the address's own characters and not of some fixed text. */
  lemma NormalizeKeepsKeys(s: string)
    requires forall i | 0 <= i < |s| :: !('A' <= s[i] <= 'Z')
    requires |s| > 0 ==> !IsPySpace(s[0]) && !IsPySpace(s[|s| - 1])
    ensures Normalize(s) == s
  {
    assert Lower(s) == s;
    StripKeepsTrimmed(s, IsPySpace);
  }

  /** A key is its own key. */
  lemma NormalizeIdempotent(s: string)
    ensures Normalize(Normalize(s)) == Normalize(s)
  {
    var r := Normalize(s);
    assert Lower(r) == r;
    StripKeepsTrimmed(r, IsPySpace);
  }

  /** The key of an incoming listing; a missing, `None` or empty address gives "". */
  function ListingKey(l: Listing): string {
    Normalize(StrOr(l.address, ""))
  }

  /** The key of an existing deal, read with a default of "" for a missing address. */
  function DealKey(d: StoredDeal): (r: Result<string, Fault>)
    ensures r.Failure? <==> d.address == Null
    ensures r.Success? && r.value != "" ==> d.address.Val?
    ensures d.address.Val? ==> r == Success(Normalize(d.address.value))
    ensures d.address.Absent? ==> r == Success("")
  {
    match d.address
    case Absent => Success("")
    case Null => Failure(AddressIsNone)
    case Val(a) => Success(Normalize(a))
  }

  /** Some existing deal has key `k`. */
  predicate Known(ds: seq<StoredDeal>, k: string) {
    exists i | 0 <= i < |ds| :: DealKey(ds[i]) == Success(k)
  }

  /** Normalised address to the position of the deal it stands for. */
  type Index = map<string, nat>

  /** The index has no empty key and points into `ds`, at deals whose address is a string. */
  predicate IndexFits(idx: Index, ds: seq<StoredDeal>) {
    forall k | k in idx :: k != "" && idx[k] < |ds| && ds[idx[k]].address.Val?
  }

  /** No deal after position `i` has key `k`. */
  predicate LastWith(ds: seq<StoredDeal>, i: nat, k: string) {
    forall j | i < j < |ds| :: DealKey(ds[j]) != Success(k)
  }

  /** Every entry of `idx` is a non-empty key, mapped to the last deal carrying it. */
  predicate IndexPoints(idx: Index, ds: seq<StoredDeal>)
    requires IndexFits(idx, ds)
  {
    forall k | k in idx :: k != "" && DealKey(ds[idx[k]]) == Success(k) && LastWith(ds, idx[k], k)
  }

  /** Every non-empty key of `ds`, and nothing else, is in `idx`. */
  ghost predicate IndexCovers(idx: Index, ds: seq<StoredDeal>) {
    forall k | k != "" :: k in idx <==> Known(ds, k)
  }

  /** `idx` maps exactly the non-empty keys of `ds`, each to the last deal carrying it. */
  ghost predicate IndexOf(idx: Index, ds: seq<StoredDeal>) {
    IndexFits(idx, ds) && IndexPoints(idx, ds) && IndexCovers(idx, ds)
  }

  /** The dictionary of existing deals by key: later deals overwrite earlier ones with the same
      key, empty keys are skipped, and an address stored as `None` aborts the run. */
  function BuildIndex(ds: seq<StoredDeal>): (r: Result<Index, Fault>)
    ensures r.Failure? <==> exists i | 0 <= i < |ds| :: ds[i].address == Null
    ensures r.Success? ==> IndexOf(r.value, ds)
    decreases |ds|
  {
    if |ds| == 0 then Success(map[])
    else
      var front := ds[..|ds| - 1];
      var last := ds[|ds| - 1];
      assert ds == front + [last];
      NullSplit(front, last);
      match BuildIndex(front)
      case Failure(e) => Failure(e)
      case Success(m) =>
        match DealKey(last)
        case Failure(e) => Failure(e)
        case Success(k) =>
          IndexStep(front, last, m, k);
          Success(if k == "" then m else m[k := |ds| - 1])
  }

  lemma NullSplit(front: seq<StoredDeal>, last: StoredDeal)
    ensures (exists i | 0 <= i < |front| + 1 :: (front + [last])[i].address == Null) <==>
      (exists i | 0 <= i < |front| :: front[i].address == Null) || last.address == Null
  {
    var ds := front + [last];
    if exists i | 0 <= i < |ds| :: ds[i].address == Null {
      var i :| 0 <= i < |ds| && ds[i].address == Null;
      if i < |front| {
        assert front[i] == ds[i];
      }
    }
    if exists i | 0 <= i < |front| :: front[i].address == Null {
      var i :| 0 <= i < |front| && front[i].address == Null;
      assert ds[i] == front[i];
    }
    assert ds[|front|] == last;
  }

  lemma IndexStep(front: seq<StoredDeal>, last: StoredDeal, m: Index, k: string)
    requires IndexOf(m, front) && DealKey(last) == Success(k)
    ensures IndexOf(if k == "" then m else m[k := |front|], front + [last])
  {
    IndexStepPoints(front, last, m, k);
    IndexStepDomain(front, last, m, k);
  }

  lemma IndexStepPoints(front: seq<StoredDeal>, last: StoredDeal, m: Index, k: string)
    requires IndexFits(m, front) && IndexPoints(m, front) && DealKey(last) == Success(k)
    ensures var r := if k == "" then m else m[k := |front|];
      IndexFits(r, front + [last]) && IndexPoints(r, front + [last])
  {
    var ds := front + [last];
    var r := if k == "" then m else m[k := |front|];
    assert ds[|front|] == last;
    forall k' | k' in r
      ensures k' != "" && r[k'] < |ds| && ds[r[k']].address.Val?
      ensures DealKey(ds[r[k']]) == Success(k') && LastWith(ds, r[k'], k')
    {
      if k' != k {
        KeepPoint(front, last, m, k');
      }
    }
  }

  lemma KeepPoint(front: seq<StoredDeal>, last: StoredDeal, m: Index, k: string)
    requires IndexFits(m, front) && IndexPoints(m, front)
    requires k in m && DealKey(last) != Success(k)
    ensures (front + [last])[m[k]] == front[m[k]]
    ensures LastWith(front + [last], m[k], k)
  {
    var ds := front + [last];
    forall j | m[k] < j < |ds| ensures DealKey(ds[j]) != Success(k) {
      if j < |front| {
        assert ds[j] == front[j];
        assert LastWith(front, m[k], k);
      }
    }
  }

  lemma IndexStepDomain(front: seq<StoredDeal>, last: StoredDeal, m: Index, k: string)
    requires IndexCovers(m, front) && DealKey(last) == Success(k)
    ensures IndexCovers(if k == "" then m else m[k := |front|], front + [last])
  {
    forall k' | k' != "" ensures k' in (if k == "" then m else m[k := |front|]) <==> Known(front + [last], k') {
      KnownSnoc(front, last, k');
    }
  }

  /** A key is known in a list with one more deal iff it is known before or is that deal's. */
  lemma KnownSnoc(front: seq<StoredDeal>, last: StoredDeal, k: string)
    ensures Known(front + [last], k) <==> Known(front, k) || DealKey(last) == Success(k)
  {
    var ds := front + [last];
    if Known(front, k) {
      var i :| 0 <= i < |front| && DealKey(front[i]) == Success(k);
      assert ds[i] == front[i];
    }
    if DealKey(last) == Success(k) {
      assert ds[|front|] == last;
    }
    if Known(ds, k) {
      var i :| 0 <= i < |ds| && DealKey(ds[i]) == Success(k);
      if i < |front| {
        assert front[i] == ds[i];
      }
    }
  }

  // ---- price changes ----

  /** The price an existing deal is compared against: the last history entry's when the history
      is a non-empty list, otherwise the deal's own price. */
  function OldPrice(d: StoredDeal): Option<int> {
    if PyListTruthy(d.priceHistory) then Get(d.priceHistory.value[|d.priceHistory.value| - 1].price)
    else Get(d.price)
  }

  /** Both prices are truthy and they differ. */
  predicate PriceMoved(newPrice: Field<int>, was: Option<int>) {
    IntTruthy(newPrice) && Truthy(was) && newPrice.value != was.value
  }

  /** Logs a new price on an existing deal: one history entry dated `today`, the new price, and a
      fresh last-seen stamp; appending to a history that is not a list aborts the run. */
  function LogPrice(d: StoredDeal, p: int, today: string, stamp: string): (r: Result<StoredDeal, Fault>)
    ensures r.Success? <==> d.priceHistory.Val?
    ensures r.Success? ==>
      && r.value.priceHistory.Val?
      && |r.value.priceHistory.value| == |d.priceHistory.value| + 1
      && r.value.priceHistory.value[..|d.priceHistory.value|] == d.priceHistory.value
      && OldPrice(r.value) == Some(p)
      && r.value.price == Val(p)
      && r.value.address == d.address
      && r.value.priceHistory.value[|d.priceHistory.value|] == PriceEntry(Val(p), Val(today))
      && r.value == d.(priceHistory := r.value.priceHistory, price := Val(p), lastSeen := Val(stamp))
  {
    match d.priceHistory
    case Val(h) =>
      var h' := h + [PriceEntry(Val(p), Val(today))];
      assert h'[..|h|] == h;
      Success(d.(priceHistory := Val(h'), price := Val(p), lastSeen := Val(stamp)))
    case _ => Failure(NoHistoryList)
  }

  // ---- one pass over the listings ----

  /** The state of `deduplicate` as it walks the listings: the listings taken as new so far, the
      addresses whose price was logged, and the existing deals as mutated so far. */
  datatype Pass = Pass(trulyNew: seq<Listing>, updated: seq<string>, deals: seq<StoredDeal>)

  /** A listing with a non-empty key that no existing deal carries. */
  predicate IsFresh(idx: Index, l: Listing) {
    ListingKey(l) != "" && ListingKey(l) !in idx
  }

  /** The listing's key is indexed and its price moved against the indexed deal's. */
  predicate Moves(idx: Index, ds: seq<StoredDeal>, l: Listing)
    requires IndexFits(idx, ds)
  {
    ListingKey(l) in idx && PriceMoved(l.price, OldPrice(ds[idx[ListingKey(l)]]))
  }

  /** One iteration of the loop: skip an empty key, take an unknown key as new, and log the
      price on the indexed deal when it moved. */
  function Step(l: Listing, idx: Index, p: Pass, today: string, stamp: string): (r: Result<Pass, Fault>)
    requires IndexFits(idx, p.deals)
    ensures r.Success? ==> |r.value.deals| == |p.deals|
    ensures r.Success? ==> forall i | 0 <= i < |p.deals| :: r.value.deals[i].address == p.deals[i].address
    ensures r.Success? ==> |r.value.updated| <= |p.updated| + 1
  {
    var k := ListingKey(l);
    if k == "" then Success(p)
    else if k !in idx then Success(p.(trulyNew := p.trulyNew + [l]))
    else
      var i := idx[k];
      if !PriceMoved(l.price, OldPrice(p.deals[i])) then Success(p)
      else LogAt(p, i, l.price.value, today, stamp)
  }

  /** Logs price `price` on the `i`-th deal of the pass and records its address. */
  function LogAt(p: Pass, i: nat, price: int, today: string, stamp: string): (r: Result<Pass, Fault>)
    requires i < |p.deals| && p.deals[i].address.Val?
    ensures r.Success? ==> r.value.trulyNew == p.trulyNew && |r.value.updated| == |p.updated| + 1
    ensures r.Success? ==> |r.value.deals| == |p.deals|
    ensures r.Success? ==> forall j | 0 <= j < |p.deals| :: r.value.deals[j].address == p.deals[j].address
  {
    var d := p.deals[i];
    match LogPrice(d, price, today, stamp)
    case Failure(e) => Failure(e)
    case Success(d') => Success(Pass(p.trulyNew, p.updated + [d.address.value], p.deals[i := d']))
  }

  /** An iteration adds the listing to the new ones exactly when its key is non-empty and not
      indexed. */
  lemma StepNew(l: Listing, idx: Index, p: Pass, today: string, stamp: string)
    requires IndexFits(idx, p.deals)
    requires Step(l, idx, p, today, stamp).Success?
    ensures Step(l, idx, p, today, stamp).value.trulyNew == p.trulyNew + if IsFresh(idx, l) then [l] else []
  {
  }

  /** What one iteration does to the existing deals: nothing unless the price moved; otherwise the
      run aborts when the indexed deal has no history list, and else exactly that deal is logged
      and its address recorded. */
  lemma StepEffect(l: Listing, idx: Index, p: Pass, today: string, stamp: string)
    requires IndexFits(idx, p.deals)
    ensures var r := Step(l, idx, p, today, stamp);
      && (!Moves(idx, p.deals, l) ==> r.Success? && r.value.deals == p.deals && r.value.updated == p.updated)
      && (Moves(idx, p.deals, l) ==>
        var i := idx[ListingKey(l)];
        && (r.Failure? <==> !p.deals[i].priceHistory.Val?)
        && (r.Success? ==>
          && r.value.deals == p.deals[i := LogPrice(p.deals[i], l.price.value, today, stamp).value]
          && r.value.updated == p.updated + [p.deals[i].address.value]))
  {
  }

  /** The loop over all listings, one `Step` per listing in order. */
  function Scan(ls: seq<Listing>, idx: Index, existing: seq<StoredDeal>, today: string, stamp: string)
    : (r: Result<Pass, Fault>)
    requires IndexFits(idx, existing)
    ensures r.Success? ==> |r.value.deals| == |existing|
    ensures r.Success? ==> forall i | 0 <= i < |existing| :: r.value.deals[i].address == existing[i].address
    ensures r.Success? ==> |r.value.updated| <= |ls|
    decreases |ls|
  {
    if |ls| == 0 then Success(Pass([], [], existing))
    else
      match Scan(ls[..|ls| - 1], idx, existing, today, stamp)
      case Failure(e) => Failure(e)
      case Success(p) => Step(ls[|ls| - 1], idx, p, today, stamp)
  }

  /** `deduplicate`: index the existing deals, then walk the listings. */
  function Deduplicate(ls: seq<Listing>, existing: seq<StoredDeal>, today: string, stamp: string)
    : (r: Result<Pass, Fault>)
    ensures BuildIndex(existing).Failure? ==> r.Failure?
    ensures r.Success? ==> |r.value.deals| == |existing| && |r.value.updated| <= |ls|
  {
    match BuildIndex(existing)
    case Failure(e) => Failure(e)
    case Success(idx) => Scan(ls, idx, existing, today, stamp)
  }

  // ---- properties of a pass ----

  /** `d` is `e` after zero or more logged prices dated `today`: a deal without a history list
      is untouched; otherwise the history only grows, by entries with a truthy price, and
      nothing but the history, the price and the last-seen stamp differs. */
  predicate Grown(e: StoredDeal, d: StoredDeal, today: string) {
    if e.priceHistory.Val? then
      var h := e.priceHistory.value;
      && d.priceHistory.Val?
      && |h| <= |d.priceHistory.value|
      && d.priceHistory.value[..|h|] == h
      && (forall j | |h| <= j < |d.priceHistory.value| ::
            d.priceHistory.value[j].date == Val(today) && IntTruthy(d.priceHistory.value[j].price))
      && d == e.(priceHistory := d.priceHistory, price := d.price, lastSeen := d.lastSeen)
    else d == e
  }

  lemma GrownLog(e: StoredDeal, d: StoredDeal, price: int, today: string, stamp: string)
    requires Grown(e, d, today) && price != 0
    requires LogPrice(d, price, today, stamp).Success?
    ensures Grown(e, LogPrice(d, price, today, stamp).value, today)
  {
    var d' := LogPrice(d, price, today, stamp).value;
    var h := e.priceHistory.value;
    var hd := d.priceHistory.value;
    var hd' := d'.priceHistory.value;
    assert hd'[..|hd|] == hd;
    assert hd'[..|h|] == hd[..|h|];
  }

  /** Some listing's key is indexed at position `i`. */
  predicate Targets(ls: seq<Listing>, idx: Index, i: nat) {
    exists j | 0 <= j < |ls| :: ListingKey(ls[j]) in idx && idx[ListingKey(ls[j])] == i
  }

  /** After a pass every existing deal has only grown, and a deal no listing's key points at is
      left exactly as it was. */
  lemma {:induction false} ScanDeals(ls: seq<Listing>, idx: Index, existing: seq<StoredDeal>, today: string, stamp: string)
    requires IndexFits(idx, existing)
    requires Scan(ls, idx, existing, today, stamp).Success?
    ensures var ds := Scan(ls, idx, existing, today, stamp).value.deals;
      forall i | 0 <= i < |existing| ::
        Grown(existing[i], ds[i], today) && (!Targets(ls, idx, i) ==> ds[i] == existing[i])
    decreases |ls|
  {
    var ds := Scan(ls, idx, existing, today, stamp).value.deals;
    if |ls| == 0 {
      forall i | 0 <= i < |existing| ensures Grown(existing[i], ds[i], today) {
        var e := existing[i];
        if e.priceHistory.Val? {
          assert e.priceHistory.value[..|e.priceHistory.value|] == e.priceHistory.value;
        }
      }
    } else {
      var front := ls[..|ls| - 1];
      var l := ls[|ls| - 1];
      ScanDeals(front, idx, existing, today, stamp);
      var p := Scan(front, idx, existing, today, stamp).value;
      StepEffect(l, idx, p, today, stamp);
      forall i | 0 <= i < |existing|
        ensures Grown(existing[i], ds[i], today) && (!Targets(ls, idx, i) ==> ds[i] == existing[i])
      {
        if !Targets(ls, idx, i) {
          assert !Targets(front, idx, i);
          assert ListingKey(ls[|ls| - 1]) !in idx || idx[ListingKey(ls[|ls| - 1])] != i;
        }
        if Moves(idx, p.deals, l) && idx[ListingKey(l)] == i {
          GrownLog(existing[i], p.deals[i], l.price.value, today, stamp);
        }
      }
    }
  }

  /** The listings taken as new are, in input order and with repeats, those whose key is
      non-empty and not indexed. */
  lemma {:induction false} ScanNew(ls: seq<Listing>, idx: Index, existing: seq<StoredDeal>, today: string, stamp: string)
    requires IndexFits(idx, existing)
    requires Scan(ls, idx, existing, today, stamp).Success?
    ensures Scan(ls, idx, existing, today, stamp).value.trulyNew == Filter(ls, l => IsFresh(idx, l))
    decreases |ls|
  {
    if |ls| > 0 {
      var front := ls[..|ls| - 1];
      ScanNew(front, idx, existing, today, stamp);
      StepNew(ls[|ls| - 1], idx, Scan(front, idx, existing, today, stamp).value, today, stamp);
    }
  }

  /** The listing makes the run abort: its key points at a deal with no history list whose own
      price is truthy and differs from the listing's. */
  predicate Aborts(idx: Index, existing: seq<StoredDeal>, l: Listing)
    requires IndexFits(idx, existing)
  {
    ListingKey(l) in idx
    && !existing[idx[ListingKey(l)]].priceHistory.Val?
    && PriceMoved(l.price, Get(existing[idx[ListingKey(l)]].price))
  }

  /** A pass fails exactly when some listing aborts it. */
  lemma {:induction false} ScanFails(ls: seq<Listing>, idx: Index, existing: seq<StoredDeal>, today: string, stamp: string)
    requires IndexFits(idx, existing)
    ensures Scan(ls, idx, existing, today, stamp).Failure? <==>
      exists j | 0 <= j < |ls| :: Aborts(idx, existing, ls[j])
    decreases |ls|
  {
    if |ls| > 0 {
      var front := ls[..|ls| - 1];
      var l := ls[|ls| - 1];
      assert ls == front + [l];
      ScanFails(front, idx, existing, today, stamp);
      AbortsSnoc(front, l, idx, existing);
      if Scan(front, idx, existing, today, stamp).Success? {
        ScanDeals(front, idx, existing, today, stamp);
        StepFails(l, idx, existing, Scan(front, idx, existing, today, stamp).value, today, stamp);
      }
    }
  }

  /** On deals that have only grown, an iteration fails exactly when the listing aborts. */
  lemma StepFails(l: Listing, idx: Index, existing: seq<StoredDeal>, p: Pass, today: string, stamp: string)
    requires IndexFits(idx, existing)
    requires |p.deals| == |existing|
    requires forall i | 0 <= i < |existing| :: Grown(existing[i], p.deals[i], today)
    ensures IndexFits(idx, p.deals)
    ensures Step(l, idx, p, today, stamp).Failure? <==> Aborts(idx, existing, l)
  {
    forall k | k in idx ensures p.deals[idx[k]].address == existing[idx[k]].address {
      assert Grown(existing[idx[k]], p.deals[idx[k]], today);
    }
    StepEffect(l, idx, p, today, stamp);
    if ListingKey(l) in idx {
      var i := idx[ListingKey(l)];
      assert Grown(existing[i], p.deals[i], today);
    }
  }

  lemma AbortsSnoc(front: seq<Listing>, l: Listing, idx: Index, existing: seq<StoredDeal>)
    requires IndexFits(idx, existing)
    ensures (exists j | 0 <= j < |front| + 1 :: Aborts(idx, existing, (front + [l])[j])) <==>
      (exists j | 0 <= j < |front| :: Aborts(idx, existing, front[j])) || Aborts(idx, existing, l)
  {
    var ls := front + [l];
    assert ls[|front|] == l;
    assert forall j | 0 <= j < |front| :: ls[j] == front[j];
  }

  // ---- deduplicate as a whole ----

  /** A listing with a non-empty key that no existing deal carries. */
  predicate NewTo(existing: seq<StoredDeal>, l: Listing) {
    ListingKey(l) != "" && !Known(existing, ListingKey(l))
  }

  /** The listings taken as new are exactly those whose key is non-empty and carried by no
      existing deal, in input order; repeats within the batch are all kept. */
  lemma DeduplicateNew(ls: seq<Listing>, existing: seq<StoredDeal>, today: string, stamp: string)
    requires Deduplicate(ls, existing, today, stamp).Success?
    ensures Deduplicate(ls, existing, today, stamp).value.trulyNew == Filter(ls, l => NewTo(existing, l))
  {
    var idx := BuildIndex(existing).value;
    ScanNew(ls, idx, existing, today, stamp);
    FilterAgree(ls, l => IsFresh(idx, l), l => NewTo(existing, l));
  }

  /** A run aborts exactly when an existing address is `None`, or when some listing's key points
      at a deal with no history list whose truthy price differs from the listing's. */
  lemma DeduplicateFails(ls: seq<Listing>, existing: seq<StoredDeal>, today: string, stamp: string)
    ensures Deduplicate(ls, existing, today, stamp).Failure? <==>
      (exists i | 0 <= i < |existing| :: existing[i].address == Null)
      || (BuildIndex(existing).Success? &&
          exists j | 0 <= j < |ls| :: Aborts(BuildIndex(existing).value, existing, ls[j]))
  {
    if BuildIndex(existing).Success? {
      ScanFails(ls, BuildIndex(existing).value, existing, today, stamp);
    }
  }

  /** Existing deals keep their order and only grow by logged prices; one that no listing's key
      points at is unchanged. */
  lemma DeduplicateDeals(ls: seq<Listing>, existing: seq<StoredDeal>, today: string, stamp: string)
    requires Deduplicate(ls, existing, today, stamp).Success?
    ensures var r := Deduplicate(ls, existing, today, stamp).value;
      |r.deals| == |existing|
      && forall i | 0 <= i < |existing| ::
        Grown(existing[i], r.deals[i], today)
        && (!Targets(ls, BuildIndex(existing).value, i) ==> r.deals[i] == existing[i])
  {
    ScanDeals(ls, BuildIndex(existing).value, existing, today, stamp);
  }

  /** The loop over a batch with one more listing is the loop over the batch, then one step. */
  lemma ScanSnoc(s: seq<Listing>, x: Listing, idx: Index, existing: seq<StoredDeal>, today: string, stamp: string)
    requires IndexFits(idx, existing)
    ensures Scan(s + [x], idx, existing, today, stamp)
         == match Scan(s, idx, existing, today, stamp)
            case Failure(e) => Failure(e)
            case Success(p) => Step(x, idx, p, today, stamp)
  {
    assert (s + [x])[..|s|] == s;
  }

  /** A listing with an empty key is skipped wherever it sits in the batch. */
  lemma {:induction false} ScanSkipsEmptyKey(a: seq<Listing>, l: Listing, b: seq<Listing>, idx: Index,
                                             existing: seq<StoredDeal>, today: string, stamp: string)
    requires IndexFits(idx, existing)
    requires ListingKey(l) == ""
    ensures Scan(a + [l] + b, idx, existing, today, stamp) == Scan(a + b, idx, existing, today, stamp)
    decreases |b|
  {
    if |b| == 0 {
      assert a + [l] + b == a + [l];
      assert a + b == a;
      ScanSnoc(a, l, idx, existing, today, stamp);
    } else {
      var b' := b[..|b| - 1];
      var x := b[|b| - 1];
      assert a + [l] + b == (a + [l] + b') + [x];
      assert a + b == (a + b') + [x];
      ScanSkipsEmptyKey(a, l, b', idx, existing, today, stamp);
      ScanSnoc(a + [l] + b', x, idx, existing, today, stamp);
      ScanSnoc(a + b', x, idx, existing, today, stamp);
    }
  }

  /** A listing with an empty key changes nothing: removing it from anywhere in the batch gives
      the same outcome. */
  lemma EmptyKeyIgnored(a: seq<Listing>, l: Listing, b: seq<Listing>, existing: seq<StoredDeal>,
                        today: string, stamp: string)
    requires ListingKey(l) == ""
    ensures Deduplicate(a + [l] + b, existing, today, stamp) == Deduplicate(a + b, existing, today, stamp)
  {
    if BuildIndex(existing).Success? {
      ScanSkipsEmptyKey(a, l, b, BuildIndex(existing).value, existing, today, stamp);
    }
  }

  // ---- formatting and merging ----

  /** A new listing as a deal record: marked new, zoning left for the dashboard, added and seen
      at `now`, and a one-entry price history exactly when the price is truthy. */
  function Format(l: Listing, now: string): (d: StoredDeal)
    ensures d.isNew == Val(true) && d.zoning == Val("")
    ensures d.addedAt == Val(now) && d.lastSeen == d.addedAt
    ensures l.propertyType.Absent? ==> d.propertyType == Val("unknown")
    ensures l.status.Absent? ==> d.status == Val("unknown")
    ensures d.priceHistory.Val?
    ensures |d.priceHistory.value| == 1 <==> IntTruthy(l.price)
    ensures |d.priceHistory.value| == 0 <==> !IntTruthy(l.price)
    ensures IntTruthy(l.price) ==> d.priceHistory.value[0] == PriceEntry(l.price, Val(now))
    ensures l.address != Null ==> DealKey(d) == Success(ListingKey(l))
    ensures OldPrice(d) == Get(l.price)
  {
    StrOrKey(l);
    StoredDeal(
      address := CopiedOr(l.address, ""),
      neighborhood := CopiedOr(l.neighborhood, ""),
      price := Copied(l.price),
      lotSize := Copied(l.lotSize),
      beds := Copied(l.beds),
      baths := Copied(l.baths),
      sqft := Copied(l.sqft),
      propertyType := CopiedOr(l.propertyType, "unknown"),
      status := CopiedOr(l.status, "unknown"),
      zoning := Val(""),
      url := Copied(l.url),
      addedAt := Val(now),
      lastSeen := Val(now),
      isNew := Val(true),
      priceHistory := Val(if IntTruthy(l.price) then [PriceEntry(l.price, Val(now))] else []))
  }

  lemma StrOrKey(l: Listing)
    ensures l.address.Val? ==> Normalize(l.address.value) == ListingKey(l)
    ensures l.address.Absent? ==> ListingKey(l) == ""
  {
  }

  /** The "new" mark cleared; nothing else changes. */
  function MarkSeen(d: StoredDeal): (r: StoredDeal)
    ensures r.isNew == Val(false)
    ensures r.(isNew := d.isNew) == d
  {
    d.(isNew := Val(false))
  }

  function FormatAll(ls: seq<Listing>, now: string): (r: seq<StoredDeal>)
    ensures |r| == |ls| && forall i | 0 <= i < |ls| :: r[i] == Format(ls[i], now)
  {
    seq(|ls|, i requires 0 <= i < |ls| => Format(ls[i], now))
  }

  function MarkAllSeen(ds: seq<StoredDeal>): (r: seq<StoredDeal>)
    ensures |r| == |ds| && forall i | 0 <= i < |ds| :: r[i] == MarkSeen(ds[i])
  {
    seq(|ds|, i requires 0 <= i < |ds| => MarkSeen(ds[i]))
  }

  /** The saved file: the new listings formatted, ahead of the existing deals with their "new"
      mark cleared; only the new deals are marked new. */
  function Merge(trulyNew: seq<Listing>, deals: seq<StoredDeal>, now: string): (r: seq<StoredDeal>)
    ensures |r| == |trulyNew| + |deals|
    ensures forall i | 0 <= i < |r| :: r[i].isNew == Val(i < |trulyNew|)
    ensures forall i | 0 <= i < |trulyNew| :: r[i] == Format(trulyNew[i], now)
    ensures forall i | 0 <= i < |deals| :: r[|trulyNew| + i] == deals[i].(isNew := Val(false))
  {
    FormatAll(trulyNew, now) + MarkAllSeen(deals)
  }

  /** The run's pure tail after the listings are collected: deduplicate, then merge. `today`
      dates logged prices, `stamp` is their last-seen time, and `now` stamps the new deals. */
  function Reconcile(ls: seq<Listing>, existing: seq<StoredDeal>, today: string, stamp: string, now: string)
    : (r: Result<seq<StoredDeal>, Fault>)
    ensures r.Success? <==> Deduplicate(ls, existing, today, stamp).Success?
    ensures r.Success? ==> |r.value| == |Deduplicate(ls, existing, today, stamp).value.trulyNew| + |existing|
  {
    match Deduplicate(ls, existing, today, stamp)
    case Failure(e) => Failure(e)
    case Success(p) => Success(Merge(p.trulyNew, p.deals, now))
  }

  /** Merging keeps every address a string when the new listings have non-empty keys. */
  lemma MergeNoNull(trulyNew: seq<Listing>, deals: seq<StoredDeal>, now: string)
    requires forall i | 0 <= i < |trulyNew| :: ListingKey(trulyNew[i]) != ""
    requires forall i | 0 <= i < |deals| :: deals[i].address != Null
    ensures forall i | 0 <= i < |Merge(trulyNew, deals, now)| :: Merge(trulyNew, deals, now)[i].address != Null
  {
    var r := Merge(trulyNew, deals, now);
    forall i | 0 <= i < |r| ensures r[i].address != Null {
      if i < |trulyNew| {
        StrOrKey(trulyNew[i]);
      } else {
        assert r[i] == deals[i - |trulyNew|].(isNew := Val(false));
      }
    }
  }

  /** A key carried by an old deal or by a new listing is carried by the merged file. */
  lemma MergeKnows(trulyNew: seq<Listing>, deals: seq<StoredDeal>, now: string, k: string)
    requires k != ""
    requires Known(deals, k) || exists i | 0 <= i < |trulyNew| :: ListingKey(trulyNew[i]) == k
    ensures Known(Merge(trulyNew, deals, now), k)
  {
    if Known(deals, k) {
      var i :| 0 <= i < |deals| && DealKey(deals[i]) == Success(k);
      MergeKnowsOld(trulyNew, deals, now, i);
    } else {
      var i :| 0 <= i < |trulyNew| && ListingKey(trulyNew[i]) == k;
      MergeKnowsNew(trulyNew, deals, now, i);
    }
  }

  lemma MergeKnowsOld(trulyNew: seq<Listing>, deals: seq<StoredDeal>, now: string, i: nat)
    requires i < |deals| && DealKey(deals[i]).Success?
    ensures Known(Merge(trulyNew, deals, now), DealKey(deals[i]).value)
  {
    var r := Merge(trulyNew, deals, now);
    assert r[|trulyNew| + i].address == deals[i].address;
    KnownAt(r, |trulyNew| + i, DealKey(deals[i]).value);
  }

  lemma MergeKnowsNew(trulyNew: seq<Listing>, deals: seq<StoredDeal>, now: string, i: nat)
    requires i < |trulyNew| && ListingKey(trulyNew[i]) != ""
    ensures Known(Merge(trulyNew, deals, now), ListingKey(trulyNew[i]))
  {
    var r := Merge(trulyNew, deals, now);
    StrOrKey(trulyNew[i]);
    assert r[i] == Format(trulyNew[i], now);
    KnownAt(r, i, ListingKey(trulyNew[i]));
  }

  lemma KnownAt(ds: seq<StoredDeal>, i: nat, k: string)
    requires i < |ds| && DealKey(ds[i]) == Success(k)
    ensures Known(ds, k)
  {
  }

  /** After a successful run every listing of the batch with a non-empty key is carried by some
      saved deal, so the saved file indexes cleanly and the same batch, run again, yields no new
      listing. */
  lemma RerunFindsNothingNew(ls: seq<Listing>, existing: seq<StoredDeal>, today: string, stamp: string, now: string,
                             today2: string, stamp2: string)
    requires Reconcile(ls, existing, today, stamp, now).Success?
    ensures var saved := Reconcile(ls, existing, today, stamp, now).value;
      && BuildIndex(saved).Success?
      && (forall j | 0 <= j < |ls| && ListingKey(ls[j]) != "" :: Known(saved, ListingKey(ls[j])))
      && (Deduplicate(ls, saved, today2, stamp2).Success? ==>
            Deduplicate(ls, saved, today2, stamp2).value.trulyNew == [])
  {
    var p := Deduplicate(ls, existing, today, stamp).value;
    var saved := Merge(p.trulyNew, p.deals, now);
    assert Reconcile(ls, existing, today, stamp, now).value == saved;
    DeduplicateNew(ls, existing, today, stamp);
    DeduplicateDeals(ls, existing, today, stamp);
    MergeCarries(ls, existing, p, now, today);
    if Deduplicate(ls, saved, today2, stamp2).Success? {
      DeduplicateNew(ls, saved, today2, stamp2);
      FilterNone(ls, l => NewTo(saved, l));
    }
  }

  lemma MergeCarries(ls: seq<Listing>, existing: seq<StoredDeal>, p: Pass, now: string, today: string)
    requires p.trulyNew == Filter(ls, l => NewTo(existing, l))
    requires |p.deals| == |existing|
    requires forall i | 0 <= i < |existing| :: Grown(existing[i], p.deals[i], today)
    requires forall i | 0 <= i < |existing| :: existing[i].address != Null
    ensures forall i | 0 <= i < |Merge(p.trulyNew, p.deals, now)| :: Merge(p.trulyNew, p.deals, now)[i].address != Null
    ensures forall j | 0 <= j < |ls| && ListingKey(ls[j]) != "" :: Known(Merge(p.trulyNew, p.deals, now), ListingKey(ls[j]))
  {
    forall i | 0 <= i < |p.trulyNew| ensures ListingKey(p.trulyNew[i]) != "" {
      assert p.trulyNew[i] in Filter(ls, l => NewTo(existing, l));
    }
    forall i | 0 <= i < |p.deals| ensures p.deals[i].address != Null {
      assert Grown(existing[i], p.deals[i], today);
    }
    MergeNoNull(p.trulyNew, p.deals, now);
    forall j | 0 <= j < |ls| && ListingKey(ls[j]) != ""
      ensures Known(Merge(p.trulyNew, p.deals, now), ListingKey(ls[j]))
    {
      FilterMember(ls, l => NewTo(existing, l), ls[j]);
      RerunKnows(ls[j], existing, p, now, today);
    }
  }

  lemma RerunKnows(l: Listing, existing: seq<StoredDeal>, p: Pass, now: string, today: string)
    requires ListingKey(l) != ""
    requires |p.deals| == |existing|
    requires forall i | 0 <= i < |existing| :: Grown(existing[i], p.deals[i], today)
    requires NewTo(existing, l) ==> l in p.trulyNew
    ensures Known(Merge(p.trulyNew, p.deals, now), ListingKey(l))
  {
    var k := ListingKey(l);
    if Known(existing, k) {
      var i :| 0 <= i < |existing| && DealKey(existing[i]) == Success(k);
      assert Grown(existing[i], p.deals[i], today);
      assert DealKey(p.deals[i]) == Success(k);
    } else {
      var i :| 0 <= i < |p.trulyNew| && p.trulyNew[i] == l;
    }
    MergeKnows(p.trulyNew, p.deals, now, k);
  }
}

=== FILE: sorting.dfy ===
/** The table's sort: a comparator over keys where a missing value counts as +Infinity, scaled
    by a direction of +1 or -1, and a stable insertion sort over it. A stable sort under a
    consistent comparator has exactly one possible result, so the insertion sort gives the same
    order as any stable engine sort. */
module Sorting {

  /** A sort key: an integer, or +Infinity for a missing value. */
  datatype Ext = Fin(n: int) | Inf

  predicate Lt(a: Ext, b: Ext) {
    match (a, b)
    case (Fin(x), Fin(y)) => x < y
    case (Fin(_), Inf) => true
    case (Inf, _) => false
  }

  /** The sort direction `sDir`. */
  type Sign = x: int | x == 1 || x == -1 witness 1

  /** The comparator `av<bv ? -sDir : av>bv ? sDir : 0`. */
  function Compare(a: Ext, b: Ext, dir: Sign): (c: int)
    ensures c == 0 <==> a == b
    ensures dir == 1 ==> (c < 0 <==> Lt(a, b))
    ensures dir == -1 ==> (c < 0 <==> Lt(b, a))
  {
    if Lt(a, b) then -(dir as int) else if Lt(b, a) then dir else 0
  }

  lemma CompareTransitive(a: Ext, b: Ext, c: Ext, dir: Sign)
    requires Compare(a, b, dir) <= 0 && Compare(b, c, dir) <= 0
    ensures Compare(a, c, dir) <= 0
  {
  }

  lemma CompareStrictTransitive(a: Ext, b: Ext, c: Ext, dir: Sign)
    requires Compare(a, b, dir) < 0 && Compare(b, c, dir) <= 0
    ensures Compare(a, c, dir) < 0
  {
  }

  ghost predicate Sorted<T>(s: seq<T>, key: T -> Ext, dir: Sign) {
    forall i, j | 0 <= i < j < |s| :: Compare(key(s[i]), key(s[j]), dir) <= 0
  }

  /** The elements whose key is `k`, in order. */
  function Class<T>(s: seq<T>, key: T -> Ext, k: Ext): seq<T>
    decreases |s|
  {
    if |s| == 0 then []
    else (if key(s[0]) == k then [s[0]] else []) + Class(s[1..], key, k)
  }

  /** Stability: for every key, the elements carrying it keep their relative order. */
  ghost predicate Stable<T>(r: seq<T>, s: seq<T>, key: T -> Ext) {
    forall k :: Class(r, key, k) == Class(s, key, k)
  }

  /** Places `x` before the first element that must come after it, so after its equals. */
  function Insert<T>(x: T, s: seq<T>, key: T -> Ext, dir: Sign): seq<T>
    decreases |s|
  {
    if |s| == 0 then [x]
    else if Compare(key(x), key(s[0]), dir) < 0 then [x] + s
    else [s[0]] + Insert(x, s[1..], key, dir)
  }

  function InsertionSort<T>(s: seq<T>, key: T -> Ext, dir: Sign): seq<T>
    decreases |s|
  {
    if |s| == 0 then []
    else Insert(s[|s| - 1], InsertionSort(s[..|s| - 1], key, dir), key, dir)
  }

  // ---- classes ----

  lemma {:induction false} ClassConcat<T>(a: seq<T>, b: seq<T>, key: T -> Ext, k: Ext)
    ensures Class(a + b, key, k) == Class(a, key, k) + Class(b, key, k)
    decreases |a|
  {
    if |a| == 0 {
      assert a + b == b;
    } else {
      assert (a + b)[1..] == a[1..] + b;
      ClassConcat(a[1..], b, key, k);
    }
  }

  lemma {:induction false} ClassMembers<T>(s: seq<T>, key: T -> Ext, k: Ext)
    ensures Class(s, key, k) == [] <==> forall i | 0 <= i < |s| :: key(s[i]) != k
    decreases |s|
  {
    if |s| > 0 {
      ClassMembers(s[1..], key, k);
      assert forall i | 1 <= i < |s| :: s[i] == s[1..][i - 1];
    }
  }

  // ---- insertion ----

  lemma {:induction false} InsertMultiset<T>(x: T, s: seq<T>, key: T -> Ext, dir: Sign)
    ensures multiset(Insert(x, s, key, dir)) == multiset(s) + multiset{x}
    decreases |s|
  {
    if |s| > 0 && Compare(key(x), key(s[0]), dir) >= 0 {
      InsertMultiset(x, s[1..], key, dir);
      assert s == [s[0]] + s[1..];
    }
  }

  lemma {:induction false} InsertSorted<T>(x: T, s: seq<T>, key: T -> Ext, dir: Sign)
    requires Sorted(s, key, dir)
    ensures Sorted(Insert(x, s, key, dir), key, dir)
    decreases |s|
  {
    if |s| > 0 {
      var r := Insert(x, s, key, dir);
      if Compare(key(x), key(s[0]), dir) < 0 {
        forall i, j | 0 <= i < j < |r| ensures Compare(key(r[i]), key(r[j]), dir) <= 0 {
          if i == 0 {
            CompareTransitive(key(x), key(s[0]), key(s[j - 1]), dir);
          }
        }
      } else {
        var t := s[1..];
        InsertSorted(x, t, key, dir);
        InsertMultiset(x, t, key, dir);
        var rt := Insert(x, t, key, dir);
        forall j | 0 <= j < |rt| ensures Compare(key(s[0]), key(rt[j]), dir) <= 0 {
          assert rt[j] in multiset(rt);
          if rt[j] != x {
            assert rt[j] in multiset(t);
            var m :| 0 <= m < |t| && t[m] == rt[j];
            assert s[m + 1] == t[m];
          }
        }
        assert r == [s[0]] + rt;
      }
    }
  }

  lemma {:induction false} InsertClass<T>(x: T, s: seq<T>, key: T -> Ext, dir: Sign, k: Ext)
    requires Sorted(s, key, dir)
    ensures Class(Insert(x, s, key, dir), key, k)
            == Class(s, key, k) + (if key(x) == k then [x] else [])
    decreases |s|
  {
    if |s| == 0 {
      assert Insert(x, s, key, dir) == [x];
      assert [x][1..] == [];
    } else if Compare(key(x), key(s[0]), dir) < 0 {
      InsertFront(x, s, key, dir, k);
    } else {
      var t := s[1..];
      SortedTail(s, key, dir);
      InsertClass(x, t, key, dir, k);
      assert ([s[0]] + Insert(x, t, key, dir))[1..] == Insert(x, t, key, dir);
    }
  }

  lemma SortedTail<T>(s: seq<T>, key: T -> Ext, dir: Sign)
    requires Sorted(s, key, dir) && |s| > 0
    ensures Sorted(s[1..], key, dir)
  {
    var t := s[1..];
    forall i, j | 0 <= i < j < |t| ensures Compare(key(t[i]), key(t[j]), dir) <= 0 {
      assert t[i] == s[i + 1] && t[j] == s[j + 1];
    }
  }

  /** An element placed in front of everything has no equal in the rest. */
  lemma InsertFront<T>(x: T, s: seq<T>, key: T -> Ext, dir: Sign, k: Ext)
    requires Sorted(s, key, dir) && |s| > 0
    requires Compare(key(x), key(s[0]), dir) < 0
    ensures Class([x] + s, key, k) == Class(s, key, k) + (if key(x) == k then [x] else [])
  {
    assert ([x] + s)[1..] == s;
    if key(x) == k {
      forall i | 0 <= i < |s| ensures key(s[i]) != k {
        if i > 0 {
          CompareStrictTransitive(key(x), key(s[0]), key(s[i]), dir);
        }
      }
      ClassMembers(s, key, k);
    }
  }

  // ---- the sort ----

  /** The insertion sort returns a permutation of its input. */
  lemma {:induction false} SortPermutes<T>(s: seq<T>, key: T -> Ext, dir: Sign)
    ensures multiset(InsertionSort(s, key, dir)) == multiset(s)
    decreases |s|
  {
    if |s| > 0 {
      SortPermutes(s[..|s| - 1], key, dir);
      InsertMultiset(s[|s| - 1], InsertionSort(s[..|s| - 1], key, dir), key, dir);
      assert s == s[..|s| - 1] + [s[|s| - 1]];
    }
  }

  /** Consecutive outputs never compare as out of order. */
  lemma {:induction false} SortSorts<T>(s: seq<T>, key: T -> Ext, dir: Sign)
    ensures Sorted(InsertionSort(s, key, dir), key, dir)
    decreases |s|
  {
    if |s| > 0 {
      SortSorts(s[..|s| - 1], key, dir);
      InsertSorted(s[|s| - 1], InsertionSort(s[..|s| - 1], key, dir), key, dir);
    }
  }

  /** Records with equal keys keep the order they had. */
  lemma {:induction false} SortStable<T>(s: seq<T>, key: T -> Ext, dir: Sign)
    ensures Stable(InsertionSort(s, key, dir), s, key)
    decreases |s|
  {
    if |s| > 0 {
      var init, last := s[..|s| - 1], s[|s| - 1];
      SortStable(init, key, dir);
      SortSorts(init, key, dir);
      forall k ensures Class(InsertionSort(s, key, dir), key, k) == Class(s, key, k) {
        InsertClass(last, InsertionSort(init, key, dir), key, dir, k);
        ClassConcat(init, [last], key, k);
        assert s == init + [last];
        assert [last][1..] == [];
      }
    }
  }

  /** Two sorted sequences with the same elements per key are equal: a stable sort has only
      one possible result. */
  lemma {:induction false} StableSortUnique<T>(a: seq<T>, b: seq<T>, key: T -> Ext, dir: Sign)
    requires Sorted(a, key, dir) && Sorted(b, key, dir)
    requires Stable(a, b, key)
    ensures a == b
    decreases |a| + |b|
  {
    if |a| == 0 || |b| == 0 {
      if |a| == 0 {
        StableEmpty(a, b, key);
      } else {
        StableEmpty(b, a, key);
      }
    } else {
      SameHead(a, b, key, dir);
      SortedTail(a, key, dir);
      SortedTail(b, key, dir);
      StableSortUnique(a[1..], b[1..], key, dir);
      assert a == [a[0]] + a[1..];
      assert b == [b[0]] + b[1..];
    }
  }

  lemma StableEmpty<T>(a: seq<T>, b: seq<T>, key: T -> Ext)
    requires Stable(a, b, key) || Stable(b, a, key)
    requires |a| == 0
    ensures |b| == 0
  {
    if |b| > 0 {
      ClassHead(b, key);
    }
  }

  lemma ClassHead<T>(s: seq<T>, key: T -> Ext)
    requires |s| > 0
    ensures Class(s, key, key(s[0])) == [s[0]] + Class(s[1..], key, key(s[0]))
  {
  }

  /** Sorted, stable and non-empty: the first elements agree, and so do the rests. */
  lemma SameHead<T>(a: seq<T>, b: seq<T>, key: T -> Ext, dir: Sign)
    requires Sorted(a, key, dir) && Sorted(b, key, dir)
    requires Stable(a, b, key)
    requires |a| > 0 && |b| > 0
    ensures a[0] == b[0]
    ensures Stable(a[1..], b[1..], key)
  {
    var ka, kb := key(a[0]), key(b[0]);
    SameFirstKey(a, b, key, dir);
    var ta, tb := Class(a[1..], key, ka), Class(b[1..], key, ka);
    assert Class(a, key, ka) == [a[0]] + ta;
    assert Class(b, key, ka) == [b[0]] + tb;
    assert a[0] == b[0] by {
      assert ([a[0]] + ta)[0] == ([b[0]] + tb)[0];
    }
    assert ta == tb by {
      assert ta == ([a[0]] + ta)[1..];
      assert tb == ([b[0]] + tb)[1..];
    }
    forall k ensures Class(a[1..], key, k) == Class(b[1..], key, k) {
      assert Class(a, key, k) == Class(b, key, k);
      if k != ka {
        assert Class(a, key, k) == Class(a[1..], key, k);
        assert Class(b, key, k) == Class(b[1..], key, k);
      }
    }
  }

  lemma SameFirstKey<T>(a: seq<T>, b: seq<T>, key: T -> Ext, dir: Sign)
    requires Sorted(a, key, dir) && Sorted(b, key, dir)
    requires Stable(a, b, key)
    requires |a| > 0 && |b| > 0
    ensures key(a[0]) == key(b[0])
  {
    var ka, kb := key(a[0]), key(b[0]);
    assert Class(a, key, ka) != [];
    ClassMembers(b, key, ka);
    var j :| 0 <= j < |b| && key(b[j]) == ka;
    assert j == 0 || Compare(kb, ka, dir) <= 0;
    assert Class(b, key, kb) != [];
    ClassMembers(a, key, kb);
    var i :| 0 <= i < |a| && key(a[i]) == kb;
    assert i == 0 || Compare(ka, kb, dir) <= 0;
  }

  /** Whatever a stable sort returns — a sorted permutation that keeps equal keys in order — is
      exactly the insertion sort's result. */
  lemma EngineSortAgrees<T>(s: seq<T>, r: seq<T>, key: T -> Ext, dir: Sign)
    requires Sorted(r, key, dir) && Stable(r, s, key)
    ensures r == InsertionSort(s, key, dir)
  {
    SortSorts(s, key, dir);
    SortStable(s, key, dir);
    StableSortUnique(r, InsertionSort(s, key, dir), key, dir);
  }

  /** Missing values (+Infinity) end up last in ascending order and first in descending. */
  lemma InfinityPlacement<T>(s: seq<T>, key: T -> Ext, dir: Sign, i: int, j: int)
    requires Sorted(s, key, dir)
    requires 0 <= i < j < |s|
    ensures dir == 1 && key(s[i]) == Inf ==> key(s[j]) == Inf
    ensures dir == -1 && key(s[j]) == Inf ==> key(s[i]) == Inf
  {
  }
}

=== FILE: store.dfy ===
/** The in-memory collection: the start-up merge of curated and feed deals, and the two edits
    the table offers, save (insert or replace by id) and delete. */
module Store {
  import opened Base
  import opened Text
  import opened Lists
  import opened Records
  import opened Deals
  import Feed

  /** Why a save is refused: the name is empty after trimming. */
  datatype SaveError = EmptyName

  /** Every curated id is its position plus one. */
  lemma CuratedIds()
    ensures |CuratedDeals| == 10
    ensures forall i | 0 <= i < |CuratedDeals| :: CuratedDeals[i].id == i + 1
    ensures forall i | 0 <= i < |CuratedDeals| :: CuratedDeals[i].source == Some(Curated)
    ensures UniqueIds(CuratedDeals)
  {
  }

  /** The collection once the feed has arrived: the curated deals, then the feed's. Ids stay
      unique because feed ids start at 10000. */
  function Seeded(feed: seq<StoredDeal>): (ds: seq<Deal>)
    ensures |ds| == |CuratedDeals| + |feed|
    ensures UniqueIds(ds)
    ensures ds[..|CuratedDeals|] == CuratedDeals
    ensures forall i | |CuratedDeals| <= i < |ds| :: ds[i].source == Some(Pipeline)
  {
    CuratedIds();
    AppendFeed(CuratedDeals, feed);
    CuratedDeals + Feed.MapFeed(feed)
  }

  /** Appending the feed to a list whose ids are distinct and below the feed's base keeps ids
      distinct. */
  lemma AppendFeed(c: seq<Deal>, feed: seq<StoredDeal>)
    requires UniqueIds(c)
    requires forall i | 0 <= i < |c| :: c[i].id < Feed.FeedIdBase
    ensures UniqueIds(c + Feed.MapFeed(feed))
    ensures (c + Feed.MapFeed(feed))[..|c|] == c
    ensures forall i | |c| <= i < |c| + |feed| :: (c + Feed.MapFeed(feed))[i].source == Some(Pipeline)
  {
    var m := Feed.MapFeed(feed);
    var ds := c + m;
    assert forall i | |c| <= i < |ds| :: ds[i] == m[i - |c|];
  }

  /** `save`: refused when the trimmed name is empty; otherwise every record with the draft's
      id is replaced where it stands, or the draft is appended when no record has that id. */
  function Save(ds: seq<Deal>, ed: Deal): (r: Result<seq<Deal>, SaveError>)
    ensures r.Failure? <==> JsTrim(ed.name) == ""
    ensures r.Success? && ed.id in Ids(ds) ==>
      |r.value| == |ds|
      && forall i | 0 <= i < |ds| :: r.value[i] == if ds[i].id == ed.id then ed else ds[i]
    ensures r.Success? && ed.id !in Ids(ds) ==> r.value == ds + [ed]
  {
    if JsTrim(ed.name) == "" then Failure(EmptyName)
    else if ed.id in Ids(ds) then
      Success(seq(|ds|, i requires 0 <= i < |ds| => if ds[i].id == ed.id then ed else ds[i]))
    else Success(ds + [ed])
  }

  /** The collection after a save attempt: a refused save changes nothing. */
  function AfterSave(ds: seq<Deal>, ed: Deal): seq<Deal> {
    Save(ds, ed).GetOr(ds)
  }

  predicate KeepOthers(d: Deal, id: int) {
    d.id != id
  }

  /** `del`: drops exactly the records with that id and keeps the others in order. */
  function Delete(ds: seq<Deal>, id: int): (r: seq<Deal>)
    ensures id !in Ids(r)
    ensures IsSubseq(r, ds)
    ensures forall x :: multiset(r)[x] == if x.id == id then 0 else multiset(ds)[x]
    ensures |r| == |ds| <==> id !in Ids(ds)
  {
    var p := (d: Deal) => KeepOthers(d, id);
    DeleteDropsId(ds, id);
    FilterMultiset(ds, p);
    FilterIsSubseq(ds, p);
    FilterKeepsAll(ds, p);
    Filter(ds, p)
  }

  lemma DeleteDropsId(ds: seq<Deal>, id: int)
    ensures id !in Ids(Filter(ds, d => KeepOthers(d, id)))
  {
    var r := Filter(ds, d => KeepOthers(d, id));
    forall i | 0 <= i < |r| ensures r[i].id != id {
      assert r[i] in r;
    }
  }

  // ---- properties ----

  /** The blank draft from the "add" button cannot be saved as it is. */
  lemma BlankRejected(ds: seq<Deal>, stamp: int)
    ensures Save(ds, Blank(stamp)).Failure?
    ensures AfterSave(ds, Blank(stamp)) == ds
  {
    assert JsTrim("") == "";
  }

  /** Saving the same draft twice is the same as saving it once. */
  lemma SaveIdempotent(ds: seq<Deal>, ed: Deal)
    requires Save(ds, ed).Success?
    ensures Save(Save(ds, ed).value, ed) == Save(ds, ed)
  {
    var r := Save(ds, ed).value;
    assert ed.id in Ids(r) by {
      if ed.id in Ids(ds) {
        var i :| 0 <= i < |ds| && ds[i].id == ed.id;
        assert r[i] == ed;
      } else {
        assert r[|ds|] == ed;
      }
    }
    var r2 := Save(r, ed).value;
    forall i | 0 <= i < |r| ensures r2[i] == r[i] {
      if i < |ds| && ds[i].id != ed.id {
        assert r[i] == ds[i];
      }
    }
    assert |r2| == |r|;
    assert r2 == r;
  }

  /** A save keeps ids unique, and afterwards the draft is the one record with its id. */
  lemma SaveKeepsIdsUnique(ds: seq<Deal>, ed: Deal)
    requires UniqueIds(ds)
    requires Save(ds, ed).Success?
    ensures UniqueIds(Save(ds, ed).value)
    ensures exists i | 0 <= i < |Save(ds, ed).value| :: Save(ds, ed).value[i] == ed
    ensures forall i | 0 <= i < |Save(ds, ed).value| && Save(ds, ed).value[i].id == ed.id ::
              Save(ds, ed).value[i] == ed
  {
    var r := Save(ds, ed).value;
    if ed.id in Ids(ds) {
      var k :| 0 <= k < |ds| && ds[k].id == ed.id;
      assert r[k] == ed;
    } else {
      assert r[|ds|] == ed;
    }
  }

  /** Deleting twice is deleting once. */
  lemma DeleteIdempotent(ds: seq<Deal>, id: int)
    ensures Delete(Delete(ds, id), id) == Delete(ds, id)
  {
    FilterIdempotent(ds, d => KeepOthers(d, id));
  }

  /** Adding a record under a fresh id and deleting that id gives back the collection. */
  lemma AddThenDelete(ds: seq<Deal>, ed: Deal)
    requires Save(ds, ed).Success?
    requires ed.id !in Ids(ds)
    ensures Delete(Save(ds, ed).value, ed.id) == ds
  {
    var p := (d: Deal) => KeepOthers(d, ed.id);
    assert Save(ds, ed).value == ds + [ed];
    FilterConcat(ds, [ed], p);
    FilterAll(ds, p);
    assert [ed][..0] == [];
  }
}

=== FILE: text.dfy ===
/** String primitives used by the search box, the save validation, the feed mapping and the
    scraper's address matching: whitespace trimming in the JavaScript and Python flavours,
    ASCII lower-casing, substring search, joining, decimal rendering and the 5-digit scan. */
module Text {

  // ---- whitespace ----

  /** Unicode space separators (category Zs). */
  predicate IsZs(c: char) {
    c == ' ' || c == '\U{00A0}' || c == '\U{1680}' || ('\U{2000}' <= c <= '\U{200A}')
    || c == '\U{202F}' || c == '\U{205F}' || c == '\U{3000}'
  }

  /** What `String.prototype.trim` removes: WhiteSpace and LineTerminator code points. */
  predicate IsJsSpace(c: char) {
    IsZs(c) || c == '\t' || c == '\U{000B}' || c == '\U{000C}' || c == '\U{FEFF}'
    || c == '\n' || c == '\r' || c == '\U{2028}' || c == '\U{2029}'
  }

  /** What Python's `str.strip()` removes (`str.isspace`). */
  predicate IsPySpace(c: char) {
    IsZs(c) || c == '\t' || c == '\n' || c == '\U{000B}' || c == '\U{000C}' || c == '\r'
    || ('\U{001C}' <= c <= '\U{001F}') || c == '\U{0085}' || c == '\U{2028}' || c == '\U{2029}'
  }

  function StripStart(s: string, ws: char -> bool): (r: string)
    ensures |r| <= |s| && r == s[|s| - |r|..]
    ensures |r| > 0 ==> !ws(r[0])
    ensures forall i | 0 <= i < |s| - |r| :: ws(s[i])
    decreases |s|
  {
    if |s| > 0 && ws(s[0]) then StripStart(s[1..], ws) else s
  }

  function StripEnd(s: string, ws: char -> bool): (r: string)
    ensures |r| <= |s| && r == s[..|r|]
    ensures |r| > 0 ==> !ws(r[|r| - 1])
    ensures forall i | |r| <= i < |s| :: ws(s[i])
    decreases |s|
  {
    if |s| > 0 && ws(s[|s| - 1]) then StripEnd(s[..|s| - 1], ws) else s
  }

  /** Removes leading and trailing characters satisfying `ws`. */
  function Strip(s: string, ws: char -> bool): string {
    StripEnd(StripStart(s, ws), ws)
  }

  function JsTrim(s: string): string {
    Strip(s, IsJsSpace)
  }

  function PyStrip(s: string): string {
    Strip(s, IsPySpace)
  }

  /** A stripped string neither starts nor ends with white space. */
  lemma StripTrims(s: string, ws: char -> bool)
    ensures |Strip(s, ws)| > 0 ==> !ws(Strip(s, ws)[0]) && !ws(Strip(s, ws)[|Strip(s, ws)| - 1])
  {
    var a := StripStart(s, ws);
    var r := StripEnd(a, ws);
    assert r == Strip(s, ws);
    if |r| > 0 {
      assert r == a[..|r|];
      assert r[0] == a[0];
      assert !ws(a[0]);
      assert !ws(r[|r| - 1]);
    }
  }

  /** Stripping leaves nothing exactly when every character is white space. */
  lemma StripEmpty(s: string, ws: char -> bool)
    ensures Strip(s, ws) == "" <==> forall i | 0 <= i < |s| :: ws(s[i])
  {
    var a := StripStart(s, ws);
    if !forall i | 0 <= i < |s| :: ws(s[i]) {
      var i :| 0 <= i < |s| && !ws(s[i]);
      assert |s| - |a| <= i;
      var k := i - (|s| - |a|);
      assert a[k] == s[i];
      assert |StripEnd(a, ws)| > k;
    }
  }

  /** Leading white space does not survive the left strip. */
  lemma {:induction false} StripStartPad(w: string, u: string, ws: char -> bool)
    requires forall i | 0 <= i < |w| :: ws(w[i])
    ensures StripStart(w + u, ws) == StripStart(u, ws)
    decreases |w|
  {
    if |w| > 0 {
      assert (w + u)[0] == w[0];
      assert (w + u)[1..] == w[1..] + u;
      StripStartPad(w[1..], u, ws);
    } else {
      assert w + u == u;
    }
  }

  /** Trailing white space does not survive the right strip. */
  lemma {:induction false} StripEndPad(u: string, w: string, ws: char -> bool)
    requires forall i | 0 <= i < |w| :: ws(w[i])
    ensures StripEnd(u + w, ws) == StripEnd(u, ws)
    decreases |w|
  {
    if |w| > 0 {
      assert (u + w)[..|u + w| - 1] == u + w[..|w| - 1];
      StripEndPad(u, w[..|w| - 1], ws);
    } else {
      assert u + w == u;
    }
  }

  /** Once the text holds a non-space character, the left strip stops inside it and keeps
      whatever follows. */
  lemma {:induction false} StripStartKeepsTail(t: string, w: string, ws: char -> bool)
    requires exists i | 0 <= i < |t| :: !ws(t[i])
    ensures StripStart(t + w, ws) == StripStart(t, ws) + w
    decreases |t|
  {
    if ws(t[0]) {
      assert (t + w)[1..] == t[1..] + w;
      var i :| 0 <= i < |t| && !ws(t[i]);
      assert !ws(t[1..][i - 1]);
      StripStartKeepsTail(t[1..], w, ws);
    }
  }

  /** A text of white space only is stripped away entirely from the left. */
  lemma StripStartAllSpace(s: string, ws: char -> bool)
    requires forall i | 0 <= i < |s| :: ws(s[i])
    ensures StripStart(s, ws) == ""
  {
  }

  /** Stripping ignores white space added at either end. */
  lemma StripPadding(w: string, t: string, w': string, ws: char -> bool)
    requires forall i | 0 <= i < |w| :: ws(w[i])
    requires forall i | 0 <= i < |w'| :: ws(w'[i])
    ensures Strip(w + t + w', ws) == Strip(t, ws)
  {
    assert w + t + w' == w + (t + w');
    StripStartPad(w, t + w', ws);
    assert StripStart(w + t + w', ws) == StripStart(t + w', ws);
    var solid := exists i | 0 <= i < |t| :: !ws(t[i]);
    if solid {
      StripStartKeepsTail(t, w', ws);
      StripEndPad(StripStart(t, ws), w', ws);
    } else {
      StripStartAllSpace(t, ws);
      assert forall i | 0 <= i < |t + w'| :: ws((t + w')[i]) by {
        forall i | 0 <= i < |t + w'| ensures ws((t + w')[i]) {
          if i < |t| { assert (t + w')[i] == t[i]; } else { assert (t + w')[i] == w'[i - |t|]; }
        }
      }
      StripStartAllSpace(t + w', ws);
    }
  }

  /** Stripping only removes characters, so whatever holds of every character still does. */
  lemma StripKeepsChars(x: string, ws: char -> bool, p: char -> bool)
    requires forall i | 0 <= i < |x| :: p(x[i])
    ensures forall i | 0 <= i < |Strip(x, ws)| :: p(Strip(x, ws)[i])
  {
    var a := StripStart(x, ws);
    forall i | 0 <= i < |a| ensures p(a[i]) {
      assert a[i] == x[|x| - |a| + i];
    }
    var r := StripEnd(a, ws);
    forall i | 0 <= i < |r| ensures p(r[i]) {
      assert r[i] == a[i];
    }
  }

  /** A text with no white space at its ends is its own strip. */
  lemma StripKeepsTrimmed(t: string, ws: char -> bool)
    requires |t| > 0 ==> !ws(t[0]) && !ws(t[|t| - 1])
    ensures Strip(t, ws) == t
  {
  }

  // ---- case ----

  /** ASCII lower-casing of one character. */
  function LowerChar(c: char): char {
    if 'A' <= c <= 'Z' then (c as int + 32) as char else c
  }

  function Lower(s: string): (r: string)
    ensures |r| == |s|
    ensures forall i | 0 <= i < |s| :: r[i] == LowerChar(s[i])
  {
    seq(|s|, i requires 0 <= i < |s| => LowerChar(s[i]))
  }

  /** Lower-casing twice is lower-casing once. */
  lemma LowerIdempotent(s: string)
    ensures Lower(Lower(s)) == Lower(s)
  {
    var l := Lower(s);
    forall i | 0 <= i < |s| ensures Lower(l)[i] == l[i] {
      assert l[i] == LowerChar(s[i]);
    }
  }

  lemma LowerConcat(a: string, b: string)
    ensures Lower(a + b) == Lower(a) + Lower(b)
  {
  }

  // ---- substring search ----

  predicate OccursAt(s: string, sub: string, i: int) {
    0 <= i && i + |sub| <= |s| && s[i..i + |sub|] == sub
  }

  /** JavaScript `s.includes(sub)`. */
  predicate Contains(s: string, sub: string) {
    exists i | 0 <= i <= |s| - |sub| :: OccursAt(s, sub, i)
  }

  lemma ContainsWhole(a: string, s: string, b: string)
    ensures Contains(a + s + b, s)
  {
    assert (a + s + b)[|a|..|a| + |s|] == s;
    assert OccursAt(a + s + b, s, |a|);
  }

  /** Lower-casing keeps an occurrence where it is. */
  lemma LowerKeepsOccurrence(s: string, sub: string)
    requires Contains(s, sub)
    ensures Contains(Lower(s), Lower(sub))
  {
    var i :| 0 <= i <= |s| - |sub| && OccursAt(s, sub, i);
    assert Lower(s)[i..i + |sub|] == Lower(sub) by {
      forall k | 0 <= k < |sub| ensures Lower(s)[i..i + |sub|][k] == Lower(sub)[k] {
        assert s[i..i + |sub|][k] == sub[k];
      }
    }
    assert OccursAt(Lower(s), Lower(sub), i);
  }

  // ---- joining ----

  /** JavaScript `xs.join(sep)`. */
  function Join(xs: seq<string>, sep: string): string
    decreases |xs|
  {
    if |xs| == 0 then ""
    else if |xs| == 1 then xs[0]
    else xs[0] + sep + Join(xs[1..], sep)
  }

  /** Joining non-empty parts gives the empty string only when there are no parts, and every
      part survives as a substring of the joined text. */
  lemma {:induction false} JoinParts(xs: seq<string>, sep: string)
    requires forall i | 0 <= i < |xs| :: xs[i] != ""
    ensures Join(xs, sep) == "" <==> |xs| == 0
    ensures forall i | 0 <= i < |xs| :: Contains(Join(xs, sep), xs[i])
    decreases |xs|
  {
    if |xs| == 1 {
      ContainsWhole("", xs[0], "");
      assert "" + xs[0] + "" == xs[0];
    } else if |xs| > 1 {
      var rest := Join(xs[1..], sep);
      JoinParts(xs[1..], sep);
      assert Join(xs, sep) == xs[0] + (sep + rest) == (xs[0] + sep) + rest;
      ContainsWhole("", xs[0], sep + rest);
      assert "" + xs[0] + (sep + rest) == Join(xs, sep);
      forall i | 1 <= i < |xs| ensures Contains(Join(xs, sep), xs[i]) {
        assert xs[1..][i - 1] == xs[i];
        ContainsAfter(xs[0] + sep, rest, xs[i]);
      }
    }
  }

  /** An occurrence survives putting text in front. */
  lemma ContainsAfter(a: string, s: string, sub: string)
    requires Contains(s, sub)
    ensures Contains(a + s, sub)
  {
    var j :| 0 <= j <= |s| - |sub| && OccursAt(s, sub, j);
    assert (a + s)[|a| + j..|a| + j + |sub|] == s[j..j + |sub|];
    assert OccursAt(a + s, sub, |a| + j);
  }

  // ---- numbers as text ----

  function DigitChar(d: int): char
    requires 0 <= d < 10
  {
    ('0' as int + d) as char
  }

  predicate IsDigit(c: char) {
    '0' <= c <= '9'
  }

  function ShowNat(n: nat): (r: string)
    ensures |r| > 0
    ensures forall i | 0 <= i < |r| :: IsDigit(r[i])
  {
    if n < 10 then [DigitChar(n)] else ShowNat(n / 10) + [DigitChar(n % 10)]
  }

  /** JavaScript `${n}` on an integer. */
  function ShowInt(n: int): (r: string)
    ensures |r| > 0 && (r[0] == '-' || IsDigit(r[0]))
  {
    if n < 0 then "-" + ShowNat(-n) else ShowNat(n)
  }

  /** Three digits with leading zeros, for a thousands group. */
  function Pad3(n: nat): (r: string)
    requires n < 1000
    ensures |r| == 3
  {
    [DigitChar(n / 100), DigitChar(n / 10 % 10), DigitChar(n % 10)]
  }

  function GroupNat(n: nat): (r: string)
    ensures |r| > 0 && IsDigit(r[0])
  {
    if n < 1000 then ShowNat(n) else GroupNat(n / 1000) + "," + Pad3(n % 1000)
  }

  /** `n.toLocaleString()` in the en-US locale: thousands separated by commas. */
  function ShowGrouped(n: int): (r: string)
    ensures |r| > 0 && (r[0] == '-' || IsDigit(r[0]))
  {
    if n < 0 then "-" + GroupNat(-n) else GroupNat(n)
  }

  // ---- the /\d{5}/ scan ----

  predicate FiveDigitsAt(s: string, i: int) {
    0 <= i && i + 5 <= |s| && forall k | i <= k < i + 5 :: IsDigit(s[k])
  }

  /** `(s.match(/\d{5}/)?.[0]) || ""`: the leftmost run of five ASCII digits, or "". */
  function FirstFiveDigits(s: string): (r: string)
    ensures r == "" <==> forall i | 0 <= i <= |s| - 5 :: !FiveDigitsAt(s, i)
    ensures r != "" ==> exists i | 0 <= i <= |s| - 5 ::
      FiveDigitsAt(s, i) && r == s[i..i + 5] && forall j | 0 <= j < i :: !FiveDigitsAt(s, j)
    decreases |s|
  {
    if |s| < 5 then ""
    else if FiveDigitsAt(s, 0) then s[..5]
    else
      var r := FirstFiveDigits(s[1..]);
      FiveDigitsShift(s);
      if r == "" then
        assert forall i | 0 <= i <= |s| - 5 :: !FiveDigitsAt(s, i) by {
          forall i | 0 <= i <= |s| - 5 ensures !FiveDigitsAt(s, i) {
            if i > 0 {
              assert !FiveDigitsAt(s[1..], i - 1);
            }
          }
        }
        r
      else
        var i :| 0 <= i <= |s| - 6 && FiveDigitsAt(s[1..], i) && r == s[1..][i..i + 5]
                 && forall j | 0 <= j < i :: !FiveDigitsAt(s[1..], j);
        assert r == s[i + 1..i + 6];
        assert FiveDigitsAt(s, i + 1);
        assert forall j | 0 <= j < i + 1 :: !FiveDigitsAt(s, j) by {
          forall j | 0 <= j < i + 1 ensures !FiveDigitsAt(s, j) {
            if j > 0 {
              assert !FiveDigitsAt(s[1..], j - 1);
            }
          }
        }
        r
  }

  lemma FiveDigitsShift(s: string)
    requires |s| > 0
    ensures forall i | 1 <= i :: FiveDigitsAt(s, i) == FiveDigitsAt(s[1..], i - 1)
  {
    forall i | 1 <= i ensures FiveDigitsAt(s, i) == FiveDigitsAt(s[1..], i - 1) {
      if i + 5 <= |s| {
        assert forall k | i <= k < i + 5 :: s[k] == s[1..][k - 1];
      }
    }
  }
}
